=== FILE: README.md ===
# Destructible terrain (Scorched-Earth style), modelled in Dafny

This project models the terrain engine of a Scorched-Earth clone: the
`Terrain` class in `src/Terrain.cc` and `include/Terrain.h`.

## What the terrain engine does

- **Grid.** The terrain is a column-major occupancy grid `cells[x][y]`. Row 0 is the bottom, and `true` means solid ground.
- **Tiles.** Three colour tiles mirror the grid for display:
  - columns `[0,512)` go to tile 0;
  - columns `[512,768)` go to tile 1;
  - columns `[768,800)` go to tile 2.

  Each tile is 512 rows tall. A pixel is transparent exactly where its cell is empty.
- **Operations.** The engine
  - loads a height profile into the grid;
  - answers collision queries, either static (a box or a sprite mask at one position) or swept (stepping from a start position to an end position);
  - carves craters;
  - lets loose dirt fall under gravity;
  - tells a resting sprite whether it is about to slide off a ledge.

## How it is modelled

The model is functional. `Terrain` is an immutable datatype holding:
- the width and height;
- the grid;
- the tiles, which are absent when the surfaces could not be created;
- the last crater record.

Every mutating operation returns a new terrain.

| file | module | content |
|---|---|---|
| `results.dfy` | `Results` | `Option` and `Result` |
| `cells.dfy` | `Cells` | columns, solid counts, solid prefixes, row swaps |
| `tiles.dfy` | `Tiles` | colours, the column-to-tile map, pixel read and write, the tile builder, sprites |
| `terrain_state.dfy` | `TerrainState` | the terrain state, `remove_point`, `swap_points`, `create_textures`, `generate_textures` |
| `profile.dfy` | `Profile` | the constructor's profile loader |
| `collision.dfy` | `Collision` | the box and mask tests, and the swept test |
| `deformation.dfy` | `Deformation` | `deform` |
| `settling.dfy` | `Settling` | the column settle and the region `slide` |
| `support.dfy` | `Support` | `would_fall` |

**Floating-point inputs become integer parameters:**
- Positions are integer `Point`s.
- The 1 ms sweep step `v * 0.001` is an integer step vector `v`.
- The fall window `ceil(190 * elapsed)` is an integer `maxFall`.
- The trigonometric crater samples are a function `sample(angle, ring)`. It gives the cell before clamping, with the float-to-int truncation already applied.

**Read and write bounds.** The source can read or write outside its arrays. Each such case is a precondition, so the model only covers inputs where every access is in range.

**Reference definitions.** Each operation's result is tied to an independent reference definition:
- `BoxHits` and `MaskHits`: existential statements of a collision.
- `ClearBefore` and `HitsAfter`: the positions a sweep passed through clear, and the ones it backed off through.
- `CarvedFrom`: exactly the crater cells are cleared.
- `LegalDrop`, `Replay` and `SettledBy`: each swap of the settle is legal when it is made, and the swaps, which the settle operations return, replay to the result.
- `ReplayOnTerrain` and `ReplaySpan`: the returned swaps performed through `swap_points`, one column and then the span's columns left to right. These carry the tile colours along with the cells.
- `LeftRun`, `RightRun` and `Nudge`: the ledge arithmetic.
- `ProfileHeights`: the heights each column receives.
- `Painted` and `Mirrors`: the tile colours.

## Model

| member | source | states |
|---|---|---|
| Profile.ClampHeight | src/Terrain.cc:78-82 | A directive's height always lands in [0, 511]. Heights already in range are kept, a height above 511 becomes 511, and a negative one becomes 0. |
| Profile.RampStep | src/Terrain.cc:115-117 | The ramp step keeps its magnitude. Its sign is flipped when needed so that it points from the clamped start height toward `top`. |
| Profile.RunConsumption | src/Terrain.cc:87-100 | `<y>,<count>` consumes min(count, width − x) columns, none when count ≤ 0. Every column it fills gets the clamped height of `y`. |
| Profile.RampHeightsBetween | src/Terrain.cc:101-125 | A ramp consumes \|top − y\|/\|step\| columns. Every height it sets lies between the clamped start and `top`, and never reaches `top`. |
| Profile.ColumnHeights | src/Terrain.cc:76-132 | A single height fills one column. Single and run columns all get the clamped height of `y`. A ramp's first column gets the clamped start height. |
| Profile.RampProgression | src/Terrain.cc:115-124 | Any two ramp columns i ≤ j differ in height by (j − i) times the corrected step, so the ramp climbs or falls evenly from the clamped start height. |
| Profile.LoadChunksFillsHeights | src/Terrain.cc:73-133 | The loader loop fills rows 0..h of each column the directives reach, left to right, with h that column's height. It leaves every other cell as it was. |
| Profile.ProfileHeightsBelowTileTop | src/Terrain.cc:78-82 | When no ramp's `top` lies above row 512, no loaded height exceeds row 511. |
| Profile.Load | src/Terrain.cc:57-139 | An unreadable file fails with "Could not open terrain file: " plus the reason. Otherwise: every column is a solid prefix; cell (x, y) is solid iff the profile reaches column x with a height ≥ y; unreached columns are empty; the tiles exist iff the surfaces were created, and then mirror the grid; no crater is recorded. |
| Collision.BoxCollision | src/Terrain.cc:630-652 | The box test is true iff the position is out of bounds (x < 0, y < 0 or x + w ≥ width), or some solid cell lies in columns [x, x+w−1) and rows [y, y+h−1]. |
| Collision.MaskCollision | src/Terrain.cc:594-627 | The mask test is true iff the position is out of bounds, or some solid scanned cell meets a non-transparent sprite pixel in the row pairing the scan uses. A fully transparent mask hits only out of bounds. |
| Collision.TransparentMaskHitsOnlyOutOfBounds | src/Terrain.cc:613-626 | For a fully transparent mask, the mask verdict equals the out-of-bounds test. |
| Collision.Probe | include/Terrain.h:91-92 | Dispatches to the box or mask test, and its verdict is that test's verdict. |
| Collision.SweptCollision | src/Terrain.cc:155-191 | Any start, end and step are accepted. s0 == s1 gives no collision. A "no collision" result means the probe crossed s1 after n steps and every earlier position was readable, clear and uncrossed. A contact result means the probe hit at step m (every earlier position readable, clear and uncrossed) and then backed off to step j < m: that position is clear and every position between it and m hits. An `Unreadable` result names the first position, forward or during the back-off, whose static test would read outside the grid or the sprite, with the same account of the positions before it. An `Exhausted` result means either every forward step 0..fuel was readable, clear and short of s1, or the probe hit at some step m ≤ fuel after clear steps and every back-off step from m down to −fuel still hit. The box sweep (src/Terrain.cc:321-348) is the same loop over the box test and is the `Box` case of this member. |
| Collision.BackOff | src/Terrain.cc:173-181 | From a hit at step m, the back-off ends at a clear step j < m or at an unreadable one, with every step between j and m hitting. When it runs out of fuel, every step from m down to −fuel hit. It never reports "no collision". |
| Deformation.ClampToGrid | src/Terrain.cc:209-217 | A clamped sample always lies in the grid. Each coordinate already in range is kept; one below range becomes 0, and one past the width or height becomes width − 1 or height − 1. |
| Deformation.Deform | src/Terrain.cc:194-227 | Exactly the clamped samples of rings 1..radius at the 360 angles are cleared, both cells and pixels. Every other cell and pixel is unchanged. The record becomes (centre, radius+1), whatever it was before. The tile mirror is preserved. |
| Deformation.CarvingNeverAddsSolid | src/Terrain.cc:219 | A carve never increases the grid's solid count. |
| Deformation.EmptyCraterChangesNothing | include/Terrain.h:61-63 | Rings start at 1, so a radius ≤ 0 samples nothing and leaves every cell and pixel unchanged. |
| Deformation.CraterRepeatChangesNothing | src/Terrain.cc:203-221 | Carving the same crater a second time changes no cell and no pixel. |
| TerrainState.RemovePoint | src/Terrain.cc:655-668 | The cell becomes empty and its pixel transparent, in the tile that the 768/512 thresholds select. Every other cell and pixel is unchanged, and the mirror is preserved. |
| TerrainState.SwapPoints | src/Terrain.cc:671-708 | The two cells exchange their occupancy and their tile pixels. Nothing else changes, and the mirror is preserved. |
| TerrainState.SwapPointsInvolution | src/Terrain.cc:678-707 | Swapping the same two points twice restores the terrain exactly. |
| TerrainState.CreateTextures | src/Terrain.cc:442-500 | The tiles exist iff the three surfaces were created. When they exist, every pixel of column x, row y is the earth colour at depth min(128, solid cells above it below row 512) if the cell is solid, and transparent otherwise. The grid and dimensions are unchanged. |
| TerrainState.GenerateTextures | src/Terrain.cc:350-354 | When the tiles exist, the terrain (grid and tile pixels) is unchanged. Otherwise they exist iff the surfaces were created, and then every pixel is rebuilt as `Painted`: the earth colour for its depth where the cell is solid, and transparent elsewhere. |
| Tiles.TileOf | src/Terrain.cc:476-482 | World column x maps to tile 2 at x−768 when x ≥ 768, tile 1 at x−512 when x ≥ 512, and tile 0 at x otherwise. The tile column is within that tile's width. |
| Tiles.CreateTiles | src/Terrain.cc:468-494 | The scan from row 511 down writes every pixel as `Painted`: the earth colour darkens one step per solid cell passed, up to 128. The result mirrors the grid, and columns past the grid stay transparent. |
| Settling.FallTarget | src/Terrain.cc:569-588 | The cell at y stays iff y == 0, the window is empty, or the cell below is solid. Otherwise it lands within the window on the nearest solid cell below, or at the window's bottom, across empty rows only. |
| Settling.LegalTraceAt | src/Terrain.cc:573-587 | Every swap the settle makes moves a solid cell from row y into an empty run [to, y) with max(0, y−maxFall) ≤ to. It lands on solid ground or at the window's bottom. |
| Settling.SettleColumn | src/Terrain.cc:555-591 | It returns the swaps it made. The swaps replay to the result and keep the column's multiset. Each swap is legal and comes from a solid source row. Source rows strictly increase from `start`. With maxFall ≥ 1, no solid cell from row `start` up is left over an empty cell unless a swap dropped it there after a fall of the full window, and dirt moves iff some solid cell at row ≥ max(start,1) has an empty cell below it, and maxFall < 1 moves nothing. Empty top rows stay empty. A settle from row 0 with a full-height window leaves a solid prefix. |
| Settling.ReplayOnTerrain | src/Terrain.cc:580-585 | Replaying the swaps through `swap_points` changes only that column, exactly as the column replay does. It keeps the tile mirror and leaves other columns' pixels alone. |
| Settling.SlideColumn | src/Terrain.cc:555-591 | It returns the swaps it made: each is legal in the column as the earlier ones left it, source rows increase from `start`, and performing them through `swap_points` gives exactly the result. With maxFall ≥ 1, no solid cell from row `start` up is left over an empty cell unless it fell the full window. Only the given column changes, and its solid cells are a permutation of the old ones. With maxFall ≥ 1, it returns true iff some solid cell at row ≥ max(start,1) had an empty cell below it. With maxFall < 1, it returns false. When it returns false, the terrain is unchanged. |
| Settling.SettleSpan | src/Terrain.cc:232-241 | The rescanned columns are exactly the crater's columns [cx − R, cx + R) that lie in the grid, except the grid's last column: the right end is clamped to width − 1 and is exclusive. The start row is cy − R, or 0 when that is negative. |
| Settling.Slide | src/Terrain.cc:230-258 | It returns one trace of swaps per span column, and each span column of the result is that column settled by its legal trace from row ys; with maxFall ≥ 1, no solid cell there from row ys up is left over an empty cell unless it fell the full window. The result is exactly those traces performed through `swap_points`, column after column from the left, so every tile colour moves with its cell. Only columns [max(0, px−R), min(W−1, px+R)) change, with R the recorded radius. Every column keeps its multiset, so the grid's solid count is conserved. It returns true iff some trace is non-empty. With maxFall ≥ 1, that is iff some column of the span had a solid cell at row ≥ max(ys,1) over an empty one, where ys = max(0, py−R) is the scan start. With maxFall < 1, it returns false. The mirror and the "nothing above row 511" invariant are preserved. |
| Support.ScanGap | src/Terrain.cc:402-407 | The bottom-gap scan returns the index of the sprite column's first transparent row, or the height if there is none. |
| Support.LeftRun | src/Terrain.cc:400-414 | The left count is the length of the run of unsupported columns from the sprite's left edge. It ends at the clip edge or at a supported column. |
| Support.RightRun | src/Terrain.cc:416-429 | The right count is the length of the run of unsupported columns from the right clip edge leftward. It ends at x or at a supported column. |
| Support.Nudge | src/Terrain.cc:431-438 | The result is 0 when either run is ≥ w. It is negative iff left < w, right < w, left > right and left > w/2, and then equals −(w−left). It is positive iff right ≥ left and right > w/2, and then equals w−right. Always \|result\| < w. |
| Support.CountLeftRun | src/Terrain.cc:400-414 | The first loop's count is the left run. |
| Support.CountRightRun | src/Terrain.cc:416-429 | The second loop's count is the right run. |
| Support.WouldFall | src/Terrain.cc:387-439 | The result is 0 at row 0. Otherwise it is the nudge for the two unsupported runs. It is 0 when both edge columns are supported, or when no column of an unclipped sprite is supported. |

## Left out

- Rendering and GL:
  - `render`;
  - the texture uploads in `generate_textures`;
  - `delete_textures`;
  - surface locking, unlocking and freeing.

  Tiles are plain pixel arrays, and `Transparent` stands for the packed (0,0,0,0) value.
- Surface creation is a boolean parameter `surfacesCreated`. Freshly created surfaces are taken to be all transparent. The source never writes tile-2 columns at or past the grid width, so they stay transparent (`CreateTiles` states it).
- File reading and tokenising:
  - `ifstream`;
  - `skip_whitespace`;
  - `putback` and the end-of-file test;
  - the `errno` text.

  The input is the directive list the tokens spell. A missing file carries its reason string.
- Floating point: `cos`/`sin`, `ceil(190 * elapsed)`, the 0.001 step and float-to-int truncation. Each is an integer parameter (see above).
- `const`-ness: the queries are pure functions or methods of an immutable terrain, so that they leave the grid, the dimensions and the crater record unchanged holds by construction. No separate lemma states it.
- The width and height are fields that no operation changes. Every operation's contract states `r.width == t.width && r.height == t.height`.
- Profile.Load: requires every ramp the loader reaches to stay inside the grid, with a non-zero step. The source writes past the width and height otherwise.
- Profile.Load: requires every directive the loader reaches to fit 32-bit `int` arithmetic (`NoOverflow`): its numbers are 32-bit values, `x + count` does not overflow, the ramp step is not −2³¹, and `top` minus the clamped start height lies strictly above −2³¹ (it cannot exceed 2³¹ − 1), since `std::abs` of −2³¹ is undefined. The source's signed overflow is undefined, so the model does not follow it.
- Collision.BoxCollision: requires that the test not read row `height`. The source clamps the top row to `height`, not `height − 1`.
- Collision.MaskCollision: requires that every solid scanned cell pair with an existing sprite row (`MaskReadsInSprite`). The pairing is kept as written:
  - unclipped, the top grid row pairs with sprite row `sh`, one past the sprite;
  - clipped, the start row is `yt − height − 1`.

  The requires covers every solid cell the scan could reach, not only those it reaches before its first hit. So it excludes every position that would read outside the sprite, and also some clipped positions where the source finds a hit before it gets to such a read.
- Collision.SweptCollision: both loops of the source may run forever. The model bounds each direction by `fuel` steps and returns `Exhausted` when they run out. Where a static test would read outside the grid or the sprite, the source has no defined result; the model stops there with `Unreadable`.
- TerrainState.RemovePoint: requires row < 512. With a grid taller than 512 the source writes past the tile's last row.
- TerrainState.SwapPoints: requires row < 512, for the same reason.
- Deformation.Deform: requires every clamped sample to lie below row 512, for the same reason.
- Settling.Slide: requires that the span's columns hold no solid cell at row ≥ 512, so that every swap stays inside the tiles.
- Settling.SlideColumn: the same requirement, for its column.
- Support.WouldFall: requires only the cells its two scans actually read to exist (`LeftScanInGrid`, `RightScanInGrid`): row `y + gap − 1` below the height in each column a scan reaches, up to and including the first supported one. When a sprite column has no transparent row, the source also reads the pixel one past the sprite's top. That read cannot change the result, so the model skips it.
- A fully transparent mask still collides at out-of-bounds positions, as the code is written (`TransparentMaskHitsOnlyOutOfBounds`).

=== FILE: cells.dfy ===
/**
 * Columns of the occupancy grid. The grid is column-major: `cells[x][y]`,
 * row 0 at the bottom, `true` meaning solid ground.
 */
module Cells {

  type Column = seq<bool>

  /** Number of solid cells in a column. */
  function CountSolid(c: Column): nat
  {
    if |c| == 0 then 0 else (if c[0] then 1 else 0) + CountSolid(c[1..])
  }

  /** The solid count is the multiplicity of `true`, so any permutation keeps it. */
  lemma {:induction false} CountSolidIsMultiplicity(c: Column)
    ensures CountSolid(c) == multiset(c)[true]
  {
    if |c| > 0 {
      CountSolidIsMultiplicity(c[1..]);
      assert c == [c[0]] + c[1..];
      assert multiset(c) == multiset{c[0]} + multiset(c[1..]);
    }
  }

  /** Clearing cells never raises a column's solid count. */
  lemma {:induction false} CountSolidMonotone(a: Column, b: Column)
    requires |a| == |b|
    requires forall i :: 0 <= i < |a| && a[i] ==> b[i]
    ensures CountSolid(a) <= CountSolid(b)
  {
    if |a| > 0 {
      CountSolidMonotone(a[1..], b[1..]);
    }
  }

  /** Number of solid cells in a whole grid. */
  function GridSolid(cells: seq<Column>): nat
  {
    if |cells| == 0 then 0 else CountSolid(cells[0]) + GridSolid(cells[1..])
  }

  /** Clearing cells anywhere in a grid never raises its solid count. */
  lemma {:induction false} GridSolidMonotone(a: seq<Column>, b: seq<Column>)
    requires |a| == |b|
    requires forall x :: 0 <= x < |a| ==> |a[x]| == |b[x]|
    requires forall x, y :: 0 <= x < |a| && 0 <= y < |a[x]| && a[x][y] ==> b[x][y]
    ensures GridSolid(a) <= GridSolid(b)
  {
    if |a| > 0 {
      CountSolidMonotone(a[0], b[0]);
      GridSolidMonotone(a[1..], b[1..]);
    }
  }

  /** Grids whose columns have equal counts have equal totals. */
  lemma {:induction false} GridSolidByColumns(a: seq<Column>, b: seq<Column>)
    requires |a| == |b|
    requires forall x :: 0 <= x < |a| ==> CountSolid(a[x]) == CountSolid(b[x])
    ensures GridSolid(a) == GridSolid(b)
  {
    if |a| > 0 {
      GridSolidByColumns(a[1..], b[1..]);
    }
  }

  /** Every solid cell above row 0 rests on a solid cell: the column is a solid prefix. */
  predicate SolidPrefix(c: Column)
  {
    forall y :: 0 < y < |c| && c[y] ==> c[y - 1]
  }

  /** The column with rows 0..y set solid and the rows above left as they were. */
  function FillTo(c: Column, y: int): Column
    requires y < |c|
  {
    seq(|c|, j requires 0 <= j < |c| => j <= y || c[j])
  }

  /** Filling a solid prefix up to some height leaves a solid prefix. */
  lemma FillToKeepsPrefix(c: Column, y: int)
    requires y < |c|
    requires SolidPrefix(c)
    ensures SolidPrefix(FillTo(c, y))
  {
  }

  /** The column with rows i and j exchanged. */
  function SwapRows(c: Column, i: int, j: int): Column
    requires 0 <= i < |c| && 0 <= j < |c|
  {
    c[i := c[j]][j := c[i]]
  }
}

=== FILE: collision.dfy ===
/**
 * Collision queries over the occupancy grid: the static box and sprite-mask
 * tests at one position, and the swept test that steps a probe from a start
 * to an end position and backs off to a clear contact point.
 */
module Collision {
  import opened Tiles
  import opened TerrainState

  /** Positions at or past the right edge, left of column 0 or below row 0 count as collisions. */
  predicate OutOfBounds(t: Terrain, p: Point, w: int)
  {
    p.x + w >= t.width || p.x < 0 || p.y < 0
  }

  /**
   * The box test reads rows up to min(y+h-1, height), so it reads the
   * nonexistent row `height` unless it exits early, scans no column
   * (w <= 1), stays below the top (y+h-1 < height) or starts above it.
   */
  predicate BoxReadsInGrid(t: Terrain, p: Point, w: int, h: int)
  {
    OutOfBounds(t, p, w) || w <= 1 || p.y + h - 1 < t.height || p.y > t.height
  }

  /**
   * The box collides when out of bounds or when a solid cell lies in
   * columns [x, x+w-1) and rows [y, y+h-1] (the last column is not scanned).
   */
  predicate BoxHits(t: Terrain, p: Point, w: int, h: int)
    requires t.Valid()
  {
    || OutOfBounds(t, p, w)
    || exists tx, ty :: p.x <= tx < p.x + w - 1 && p.y <= ty <= p.y + h - 1 && ty < t.height && t.cells[tx][ty]
  }

  /** The box test as the terrain scans it: rows from the top down, columns left to right. */
  method BoxCollision(t: Terrain, p: Point, w: int, h: int) returns (hit: bool)
    requires t.Valid()
    requires BoxReadsInGrid(t, p, w, h)
    ensures hit == BoxHits(t, p, w, h)
  {
    if p.x + w >= t.width || p.x < 0 || p.y < 0 {
      return true;
    }
    var yt := p.y + h - 1;
    var ys := if yt > t.height then t.height else yt;
    var xt := p.x + w - 1;
    var xe := if xt > t.width then t.width else xt;
    var y := ys;
    while y >= p.y
      invariant y <= ys
      invariant forall tx, ty :: p.x <= tx < xe && p.y <= ty && y < ty <= ys && ty < t.height ==> !t.cells[tx][ty]
    {
      var x := p.x;
      while x < xe
        invariant p.x <= x
        invariant forall tx :: p.x <= tx < x && tx < xe ==> !t.cells[tx][y]
      {
        if t.cells[x][y] {
          return true;
        }
        x := x + 1;
      }
      y := y - 1;
    }
    return false;
  }

  /** The topmost grid row the mask test scans: the sprite's top, clipped to the grid. */
  function ScanTop(t: Terrain, p: Point, sh: int): int
  {
    var yt := p.y + sh - 1;
    if yt >= t.height then t.height - 1 else yt
  }

  /**
   * The sprite row the mask test pairs with grid row ty. It starts at row
   * `sh` for the top grid row (at yt - height - 1 when the top is clipped)
   * and goes down one row per grid row.
   */
  function SpriteRow(t: Terrain, p: Point, sh: int, ty: int): int
  {
    var yt := p.y + sh - 1;
    var sys := if yt >= t.height then yt - t.height - 1 else sh;
    sys - (ScanTop(t, p, sh) - ty)
  }

  /** Every sprite pixel the mask test may read exists: each solid cell it scans pairs with a sprite row in [0, sh). */
  predicate MaskReadsInSprite(t: Terrain, s: Sprite, p: Point)
    requires t.Valid()
  {
    || OutOfBounds(t, p, s.width)
    || forall tx, ty :: p.x <= tx < p.x + s.width - 1 && p.y <= ty <= ScanTop(t, p, s.height) && t.cells[tx][ty] ==>
         0 <= SpriteRow(t, p, s.height, ty) < s.height
  }

  /**
   * The mask collides when out of bounds or when a solid cell of the scanned
   * window meets a non-transparent sprite pixel.
   */
  predicate MaskHits(t: Terrain, s: Sprite, p: Point)
    requires t.Valid() && s.Valid()
    requires MaskReadsInSprite(t, s, p)
  {
    || OutOfBounds(t, p, s.width)
    || exists tx, ty :: p.x <= tx < p.x + s.width - 1 && p.y <= ty <= ScanTop(t, p, s.height) && t.cells[tx][ty] &&
         s.pixels[tx - p.x][SpriteRow(t, p, s.height, ty)] != Transparent
  }

  /** The mask test as the terrain scans it: grid and sprite rows in lockstep from the top down. */
  method MaskCollision(t: Terrain, s: Sprite, p: Point) returns (hit: bool)
    requires t.Valid() && s.Valid()
    requires MaskReadsInSprite(t, s, p)
    ensures hit == MaskHits(t, s, p)
    ensures hit && s.AllTransparent() ==> OutOfBounds(t, p, s.width)
  {
    if p.x + s.width >= t.width || p.x < 0 || p.y < 0 {
      return true;
    }
    var yt := p.y + s.height - 1;
    var tys := if yt >= t.height then t.height - 1 else yt;
    var sys := if yt >= t.height then yt - t.height - 1 else s.height;
    var xt := p.x + s.width - 1;
    var xe := if xt >= t.width then t.width - 1 else xt;
    var ty, sy := tys, sys;
    while ty >= p.y
      invariant ty <= tys
      invariant sy == SpriteRow(t, p, s.height, ty)
      invariant forall tx, ty' :: p.x <= tx < xe && p.y <= ty' && ty < ty' <= tys && t.cells[tx][ty'] ==>
                  s.pixels[tx - p.x][SpriteRow(t, p, s.height, ty')] == Transparent
    {
      var tx, sx := p.x, 0;
      while tx < xe
        invariant p.x <= tx && sx == tx - p.x
        invariant forall tx' :: p.x <= tx' < tx && tx' < xe && t.cells[tx'][ty] ==> s.pixels[tx' - p.x][sy] == Transparent
      {
        if t.cells[tx][ty] {
          if s.pixels[sx][sy] != Transparent {
            return true;
          }
        }
        tx, sx := tx + 1, sx + 1;
      }
      ty, sy := ty - 1, sy - 1;
    }
    return false;
  }

  /** A fully transparent mask collides only where the position is out of bounds. */
  lemma TransparentMaskHitsOnlyOutOfBounds(t: Terrain, s: Sprite, p: Point)
    requires t.Valid() && s.Valid() && s.AllTransparent()
    requires MaskReadsInSprite(t, s, p)
    ensures MaskHits(t, s, p) <==> OutOfBounds(t, p, s.width)
  {
  }

  /** An entity's footprint for the static test: a plain box or a sprite mask. */
  datatype Body = Box(w: int, h: int) | Mask(sprite: Sprite)
  {
    predicate Valid()
    {
      Mask? ==> sprite.Valid()
    }
  }

  /** The static test at p only reads cells and pixels that exist. */
  predicate Probeable(t: Terrain, b: Body, p: Point)
    requires t.Valid() && b.Valid()
  {
    match b
    case Box(w, h) => BoxReadsInGrid(t, p, w, h)
    case Mask(s) => MaskReadsInSprite(t, s, p)
  }

  /** The static test's verdict at p. */
  predicate Hits(t: Terrain, b: Body, p: Point)
    requires t.Valid() && b.Valid()
    requires Probeable(t, b, p)
  {
    match b
    case Box(w, h) => BoxHits(t, p, w, h)
    case Mask(s) => MaskHits(t, s, p)
  }

  /** Runs the static test that matches the footprint. */
  method Probe(t: Terrain, b: Body, p: Point) returns (hit: bool)
    requires t.Valid() && b.Valid()
    requires Probeable(t, b, p)
    ensures hit == Hits(t, b, p)
  {
    match b
    case Box(w, h) =>
      hit := BoxCollision(t, p, w, h);
    case Mask(s) =>
      hit := MaskCollision(t, s, p);
  }

  /** The probe position after k steps of v from s0 (negative k: backwards). */
  function Along(s0: Point, v: Point, k: int): Point
  {
    Point(s0.x + k * v.x, s0.y + k * v.y)
  }

  lemma AlongStep(s0: Point, v: Point, k: int)
    ensures Along(s0, v, k + 1) == Point(Along(s0, v, k).x + v.x, Along(s0, v, k).y + v.y)
    ensures Along(s0, v, k - 1) == Point(Along(s0, v, k).x - v.x, Along(s0, v, k).y - v.y)
  {
  }

  /** The probe has reached or passed s1 in both axes, relative to the direction from s0. */
  predicate Crossed(s0: Point, s1: Point, p: Point)
  {
    && ((s0.x <= s1.x && p.x >= s1.x) || (s0.x >= s1.x && p.x <= s1.x))
    && ((s0.y <= s1.y && p.y >= s1.y) || (s0.y >= s1.y && p.y <= s1.y))
  }

  /**
   * The outcome of a sweep: it passed s1 without a collision, it collided
   * and backed off to a clear contact point, it ran out of steps, or the
   * next static test it would run reads outside the grid or the sprite.
   */
  datatype Sweep = Clear | Contact(at: Point) | Exhausted | Unreadable(at: Point)

  /** Forward steps 0..k-1 were all readable, clear and short of s1. */
  predicate ClearBefore(t: Terrain, b: Body, s0: Point, s1: Point, v: Point, k: int)
    requires t.Valid() && b.Valid()
  {
    forall i :: 0 <= i < k ==>
      && !Crossed(s0, s1, Along(s0, v, i))
      && Probeable(t, b, Along(s0, v, i))
      && !Hits(t, b, Along(s0, v, i))
  }

  /** Steps j+1..m (the first hit at m, then the back-off) were all readable and hit. */
  predicate HitsAfter(t: Terrain, b: Body, s0: Point, v: Point, j: int, m: int)
    requires t.Valid() && b.Valid()
  {
    forall i :: j < i <= m ==> Probeable(t, b, Along(s0, v, i)) && Hits(t, b, Along(s0, v, i))
  }

  /**
   * The swept test: from s0, step by v (the 1 ms increment) and test each
   * position until the probe crosses s1; on the first collision, step back
   * by v until the test is clear and report that position. `fuel` bounds
   * the steps in each direction, since neither loop need end. A position
   * whose static test would read outside the grid or the sprite stops the
   * sweep there, since the terrain's own loop has no defined result past it.
   */
  method SweptCollision(t: Terrain, b: Body, s0: Point, s1: Point, v: Point, fuel: nat) returns (r: Sweep)
    requires t.Valid() && b.Valid()
    ensures s0 == s1 ==> r == Clear
    ensures r.Clear? ==>
      exists n :: 0 <= n <= fuel && Crossed(s0, s1, Along(s0, v, n)) && ClearBefore(t, b, s0, s1, v, n)
    ensures r.Contact? ==>
      exists m, j :: 0 <= j + fuel && j < m <= fuel && 0 <= m && r.at == Along(s0, v, j)
        && Probeable(t, b, Along(s0, v, j)) && !Hits(t, b, Along(s0, v, j))
        && HitsAfter(t, b, s0, v, j, m)
        && !Crossed(s0, s1, Along(s0, v, m))
        && ClearBefore(t, b, s0, s1, v, m)
    ensures r.Unreadable? ==>
      || (exists n :: 0 <= n <= fuel && r.at == Along(s0, v, n) && !Probeable(t, b, r.at)
            && !Crossed(s0, s1, r.at) && ClearBefore(t, b, s0, s1, v, n))
      || (exists m, j :: 0 <= j + fuel && j < m <= fuel && 0 <= m && r.at == Along(s0, v, j)
            && !Probeable(t, b, r.at)
            && HitsAfter(t, b, s0, v, j, m)
            && !Crossed(s0, s1, Along(s0, v, m))
            && ClearBefore(t, b, s0, s1, v, m))
    ensures r.Exhausted? ==>
      || ClearBefore(t, b, s0, s1, v, fuel + 1)
      || (exists m :: 0 <= m <= fuel && !Crossed(s0, s1, Along(s0, v, m)) && ClearBefore(t, b, s0, s1, v, m)
            && HitsAfter(t, b, s0, v, -(fuel as int) - 1, m))
  {
    var pos := s0;
    var k := 0;
    while true
      invariant 0 <= k <= fuel
      invariant pos == Along(s0, v, k)
      invariant ClearBefore(t, b, s0, s1, v, k)
      decreases fuel - k
    {
      if Crossed(s0, s1, pos) {
        return Clear;
      }
      if !Probeable(t, b, pos) {
        return Unreadable(pos);
      }
      var hit := Probe(t, b, pos);
      if hit {
        r := BackOff(t, b, s0, s1, v, fuel, k);
        return;
      }
      if k == fuel {
        return Exhausted;
      }
      AlongStep(s0, v, k);
      pos := Point(pos.x + v.x, pos.y + v.y);
      k := k + 1;
    }
  }

  /**
   * The back-off after the first hit at step m: step back by v until the
   * static test is clear, at most `fuel` steps behind s0.
   */
  method BackOff(t: Terrain, b: Body, s0: Point, s1: Point, v: Point, fuel: nat, m: int) returns (r: Sweep)
    requires t.Valid() && b.Valid() && 0 <= m <= fuel
    requires Probeable(t, b, Along(s0, v, m)) && Hits(t, b, Along(s0, v, m))
    ensures !r.Clear?
    ensures r.Contact? ==>
      exists j :: 0 <= j + fuel && j < m && r.at == Along(s0, v, j)
        && Probeable(t, b, Along(s0, v, j)) && !Hits(t, b, Along(s0, v, j))
        && HitsAfter(t, b, s0, v, j, m)
    ensures r.Unreadable? ==>
      exists j :: 0 <= j + fuel && j < m && r.at == Along(s0, v, j)
        && !Probeable(t, b, r.at)
        && HitsAfter(t, b, s0, v, j, m)
    ensures r.Exhausted? ==> HitsAfter(t, b, s0, v, -(fuel as int) - 1, m)
  {
    var pos := Along(s0, v, m);
    var j := m;
    while true
      invariant 0 <= j + fuel && j <= m
      invariant pos == Along(s0, v, j)
      invariant Probeable(t, b, Along(s0, v, j)) && Hits(t, b, Along(s0, v, j))
      invariant HitsAfter(t, b, s0, v, j, m)
      decreases j + fuel
    {
      if j + fuel == 0 {
        return Exhausted;
      }
      AlongStep(s0, v, j);
      pos := Point(pos.x - v.x, pos.y - v.y);
      j := j - 1;
      if !Probeable(t, b, pos) {
        return Unreadable(pos);
      }
      var hit := Probe(t, b, pos);
      if !hit {
        return Contact(pos);
      }
    }
  }
}

=== FILE: deformation.dfy ===
/**
 * Crater carving: every sample of a polar raster of the disk (360 integer
 * angles times rings 1..radius) is clamped into the grid and cleared, both
 * in the grid and in the tiles.
 */
module Deformation {
  import opened Results
  import opened Cells
  import opened Tiles
  import opened TerrainState

  /** A position clamped into the grid, column and row separately, each to the nearer edge when outside. */
  function ClampToGrid(t: Terrain, p: Point): (q: Point)
    requires t.Valid()
    ensures t.InGrid(q.x, q.y)
    ensures t.InGrid(p.x, p.y) ==> q == p
    ensures 0 <= p.x < t.width ==> q.x == p.x
    ensures p.x < 0 ==> q.x == 0
    ensures p.x >= t.width ==> q.x == t.width - 1
    ensures 0 <= p.y < t.height ==> q.y == p.y
    ensures p.y < 0 ==> q.y == 0
    ensures p.y >= t.height ==> q.y == t.height - 1
  {
    Point(if p.x < 0 then 0 else if p.x >= t.width then t.width - 1 else p.x,
          if p.y < 0 then 0 else if p.y >= t.height then t.height - 1 else p.y)
  }

  /**
   * The cells a crater clears. `sample(a, r)` is the cell that the
   * trigonometry gives for angle a (degrees) on ring r, before clamping;
   * the centre (ring 0) is never sampled.
   */
  ghost function CraterCells(t: Terrain, radius: int, sample: (int, int) -> Point): set<Point>
    requires t.Valid()
  {
    set a, r | 0 <= a < 360 && 1 <= r <= radius :: ClampToGrid(t, sample(a, r))
  }

  /**
   * u is t with exactly the cells of S cleared and their pixels made
   * transparent; every other cell and pixel is unchanged.
   */
  ghost predicate CarvedFrom(t: Terrain, u: Terrain, S: set<Point>)
    requires t.Valid() && u.Valid() && t.tiles.Some? && u.tiles.Some?
  {
    && u.width == t.width && u.height == t.height
    && (forall x, y :: t.InGrid(x, y) ==> u.cells[x][y] == (t.cells[x][y] && Point(x, y) !in S))
    && (forall x, y :: 0 <= x < TiledWidth && 0 <= y < TileRows ==>
          PixelAt(u.tiles.value, x, y) == if Point(x, y) in S then Transparent else PixelAt(t.tiles.value, x, y))
  }

  /**
   * The cells sampled before angle `angle`, ring `ring`: every ring of the
   * earlier angles, and the rings below `ring` of this one.
   */
  ghost function Sampled(t: Terrain, radius: int, sample: (int, int) -> Point, angle: int, ring: int): set<Point>
    requires t.Valid()
  {
    set a, k | 0 <= a < 360 && 1 <= k <= radius && (a < angle || (a == angle && k < ring)) :: ClampToGrid(t, sample(a, k))
  }

  /** Sampling ring `ring` of angle `angle` adds exactly its clamped cell. */
  lemma SampledNextRing(t: Terrain, radius: int, sample: (int, int) -> Point, angle: int, ring: int)
    requires t.Valid() && 0 <= angle < 360 && 1 <= ring <= radius
    ensures Sampled(t, radius, sample, angle, ring + 1) == Sampled(t, radius, sample, angle, ring) + {ClampToGrid(t, sample(angle, ring))}
  {
  }

  /** Past the last ring, the next angle starts where this one finished. */
  lemma SampledNextAngle(t: Terrain, radius: int, sample: (int, int) -> Point, angle: int, ring: int)
    requires t.Valid() && ring > radius
    ensures Sampled(t, radius, sample, angle, ring) == Sampled(t, radius, sample, angle + 1, 1)
  {
  }

  /** Clearing one more cell extends a carve by that cell. */
  lemma CarveStep(t: Terrain, u: Terrain, S: set<Point>, p: Point)
    requires t.Valid() && u.Valid() && t.tiles.Some? && u.tiles.Some?
    requires CarvedFrom(t, u, S)
    requires u.InGrid(p.x, p.y) && p.y < TileRows
    ensures CarvedFrom(t, RemovePoint(u, p.x, p.y), S + {p})
  {
  }

  /**
   * deform: records the crater (radius plus one, since rings start at 1),
   * then clears every sample, angle by angle and ring by ring.
   */
  method Deform(t: Terrain, centre: Point, radius: int, sample: (int, int) -> Point) returns (r: Terrain)
    requires t.Valid() && t.tiles.Some?
    requires forall a, k :: 0 <= a < 360 && 1 <= k <= radius ==> ClampToGrid(t, sample(a, k)).y < TileRows
    ensures r.Valid() && r.tiles.Some?
    ensures r.width == t.width && r.height == t.height
    ensures r.lastDeform == Some(Crater(centre, radius + 1))
    ensures CarvedFrom(t, r, CraterCells(t, radius, sample))
    ensures t.Mirrored() ==> r.Mirrored()
  {
    r := t.(lastDeform := Some(Crater(centre, radius + 1)));
    assert Sampled(t, radius, sample, 0, 1) == {};
    var angle := 0;
    while angle < 360
      invariant 0 <= angle <= 360
      invariant r.Valid() && r.tiles.Some?
      invariant r.width == t.width && r.height == t.height && r.lastDeform == Some(Crater(centre, radius + 1))
      invariant t.Mirrored() ==> r.Mirrored()
      invariant CarvedFrom(t, r, Sampled(t, radius, sample, angle, 1))
    {
      var ring := 1;
      while ring <= radius
        invariant 1 <= ring && (ring <= radius + 1 || ring == 1)
        invariant r.Valid() && r.tiles.Some?
        invariant r.width == t.width && r.height == t.height && r.lastDeform == Some(Crater(centre, radius + 1))
        invariant t.Mirrored() ==> r.Mirrored()
        invariant CarvedFrom(t, r, Sampled(t, radius, sample, angle, ring))
      {
        var p := ClampToGrid(t, sample(angle, ring));
        CarveStep(t, r, Sampled(t, radius, sample, angle, ring), p);
        SampledNextRing(t, radius, sample, angle, ring);
        r := RemovePoint(r, p.x, p.y);
        ring := ring + 1;
      }
      SampledNextAngle(t, radius, sample, angle, ring);
      angle := angle + 1;
    }
    assert Sampled(t, radius, sample, 360, 1) == CraterCells(t, radius, sample);
  }

  /** Carving only clears cells, so the solid count never increases. */
  lemma CarvingNeverAddsSolid(t: Terrain, u: Terrain, S: set<Point>)
    requires t.Valid() && u.Valid() && t.tiles.Some? && u.tiles.Some?
    requires CarvedFrom(t, u, S)
    ensures GridSolid(u.cells) <= GridSolid(t.cells)
  {
    GridSolidMonotone(u.cells, t.cells);
  }

  /** A crater of radius <= 0 samples nothing, so the terrain's cells and tiles stay as they were. */
  lemma EmptyCraterChangesNothing(t: Terrain, u: Terrain, radius: int, sample: (int, int) -> Point)
    requires t.Valid() && u.Valid() && t.tiles.Some? && u.tiles.Some?
    requires radius <= 0
    requires CarvedFrom(t, u, CraterCells(t, radius, sample))
    ensures u.cells == t.cells && u.tiles == t.tiles
  {
    assert CraterCells(t, radius, sample) == {};
    CellsExtensional(u.cells, t.cells, t.height);
    TilesExtensional(u.tiles.value, t.tiles.value);
  }

  /** Carving the same crater a second time changes no cell and no pixel. */
  lemma CraterRepeatChangesNothing(t: Terrain, u: Terrain, w: Terrain, radius: int, sample: (int, int) -> Point)
    requires t.Valid() && u.Valid() && w.Valid() && t.tiles.Some? && u.tiles.Some? && w.tiles.Some?
    requires CarvedFrom(t, u, CraterCells(t, radius, sample))
    requires CarvedFrom(u, w, CraterCells(u, radius, sample))
    ensures w.cells == u.cells && w.tiles == u.tiles
  {
    assert CraterCells(u, radius, sample) == CraterCells(t, radius, sample) by {
      forall a, k | 0 <= a < 360 && 1 <= k <= radius
        ensures ClampToGrid(u, sample(a, k)) == ClampToGrid(t, sample(a, k))
      {
      }
    }
    CellsExtensional(w.cells, u.cells, u.height);
    TilesExtensional(w.tiles.value, u.tiles.value);
  }
}

=== FILE: profile.dfy ===
/**
 * The terrain profile loader (the Terrain constructor). The profile is a
 * sequence of column-height directives consumed left to right; each fills
 * rows 0..h of the columns it covers. Tokenising the file is not modelled:
 * the input is the directive list the tokens spell.
 */
module Profile {
  import opened Results
  import opened Cells
  import opened Tiles
  import opened TerrainState

  /**
   * `<y>` fills one column; `<y>,<count>` fills `count` columns; `<y>r<top>[,<step>]`
   * is a ramp from y toward top, `step` rows per column (the tokeniser supplies 1
   * when the step is absent).
   */
  datatype Directive = Single(y: int) | Run(y: int, count: int) | Ramp(y: int, top: int, step: int)

  /** The profile file: unreadable (with the system's reason) or its directives. */
  datatype ProfileFile = Unreadable(reason: string) | Readable(directives: seq<Directive>)

  /** Directive heights are clamped to the rows the tiles can show. */
  const MaxProfileHeight: int := 511

  function Abs(n: int): nat
  {
    if n < 0 then -n else n
  }

  /** A directive's start height, clamped into [0, 511]: out-of-range heights go to the nearer bound. */
  function ClampHeight(y: int): (h: int)
    ensures 0 <= h <= MaxProfileHeight
    ensures 0 <= y <= MaxProfileHeight ==> h == y
    ensures y > MaxProfileHeight ==> h == MaxProfileHeight
    ensures y < 0 ==> h == 0
  {
    if y >= 512 then 511 else if y < 0 then 0 else y
  }

  /** A ramp's step with its sign corrected so that it moves from the start height toward `top`. */
  function RampStep(d: Directive): (s: int)
    requires d.Ramp?
    ensures Abs(s) == Abs(d.step)
    ensures d.top > ClampHeight(d.y) ==> s >= 0
    ensures d.top < ClampHeight(d.y) ==> s <= 0
  {
    var yCount := d.top - ClampHeight(d.y);
    if (yCount < 0 && d.step > 0) || (yCount > 0 && d.step < 0) then -d.step else d.step
  }

  /** The heights a directive gives to the columns from x on, one per column it consumes. */
  function ColumnHeights(d: Directive, x: int, width: int): (hs: seq<int>)
    requires x <= width
    requires d.Ramp? ==> d.step != 0
    ensures d.Single? ==> |hs| == 1
    ensures !d.Ramp? ==> forall i :: 0 <= i < |hs| ==> hs[i] == ClampHeight(d.y)
    ensures d.Ramp? && |hs| > 0 ==> hs[0] == ClampHeight(d.y)
  {
    match d
    case Single(y) => [ClampHeight(y)]
    case Run(y, count) =>
      if count > 0 then
        var total := if x + count > width then width else x + count;
        seq(total - x, _ => ClampHeight(y))
      else []
    case Ramp(y, top, step) =>
      var y0 := ClampHeight(y);
      var s := RampStep(d);
      seq(Abs(top - y0) / Abs(step), i => y0 + i * s)
  }

  /** A ramp's heights step evenly: two of its columns differ by the corrected step times their distance. */
  lemma RampProgression(d: Directive, x: int, width: int)
    requires x <= width && d.Ramp? && d.step != 0
    ensures var hs := ColumnHeights(d, x, width);
      forall i, j :: 0 <= i <= j < |hs| ==> hs[j] - hs[i] == (j - i) * RampStep(d)
  {
    var hs := ColumnHeights(d, x, width);
    var s := RampStep(d);
    forall i, j | 0 <= i <= j < |hs|
      ensures hs[j] - hs[i] == (j - i) * s
    {
      assert hs[j] - hs[i] == j * s - i * s;
      assert (j - i) * s == j * s - i * s;
    }
  }

  /** `,count` consumes min(count, width - x) columns, none when count <= 0, all at the clamped height. */
  lemma RunConsumption(y: int, count: int, x: int, width: int)
    requires x <= width
    ensures var hs := ColumnHeights(Run(y, count), x, width);
      && |hs| == (if count <= 0 then 0 else if count < width - x then count else width - x)
      && forall i :: 0 <= i < |hs| ==> hs[i] == ClampHeight(y) && 0 <= hs[i] <= MaxProfileHeight
  {
  }

  lemma {:induction false} MulBelow(i: nat, n: nat, b: nat, a: nat)
    requires b > 0 && i < n && n == a / b
    ensures i * b < a
  {
    assert n * b <= a;
    var k := n - 1 - i;
    assert n * b == i * b + k * b + b;
  }

  /** Fewer than |top - y0| / |s| steps of s toward top stay strictly short of top. */
  lemma {:induction false} StepsShortOfTop(y0: int, top: int, s: int, i: nat)
    requires s != 0
    requires top > y0 ==> s > 0
    requires top < y0 ==> s < 0
    requires i < Abs(top - y0) / Abs(s)
    ensures (y0 <= y0 + i * s < top) || (top < y0 + i * s <= y0)
  {
    var b := Abs(s);
    MulBelow(i, Abs(top - y0) / b, b, Abs(top - y0));
    if top > y0 {
      assert i * s == i * b;
    } else {
      assert s + b == 0;
      assert i * s + i * b == 0;
    }
  }

  /**
   * A ramp consumes |top - y| / |step| columns, and every height it sets lies
   * between its clamped start height and `top`, never reaching `top`.
   */
  lemma {:induction false} RampHeightsBetween(d: Directive, x: int, width: int)
    requires x <= width
    requires d.Ramp? && d.step != 0
    ensures var hs := ColumnHeights(d, x, width); var y0 := ClampHeight(d.y);
      && |hs| == Abs(d.top - y0) / Abs(d.step)
      && forall i :: 0 <= i < |hs| ==> (y0 <= hs[i] < d.top) || (d.top < hs[i] <= y0)
  {
    var hs := ColumnHeights(d, x, width);
    var y0 := ClampHeight(d.y);
    var s := RampStep(d);
    forall i | 0 <= i < |hs|
      ensures (y0 <= hs[i] < d.top) || (d.top < hs[i] <= y0)
    {
      assert hs[i] == y0 + i * s;
      StepsShortOfTop(y0, d.top, s, i);
    }
  }

  const Int32Min: int := -0x8000_0000
  const Int32Max: int := 0x7fff_ffff

  predicate IsInt32(n: int)
  {
    Int32Min <= n <= Int32Max
  }

  /**
   * The loader's 32-bit arithmetic on directive d at column x has a defined
   * result: the values are ints as the stream reads them, `x + count` of a
   * run and `top - y` of a ramp stay in range, and a ramp's step is not the
   * one value whose absolute value (and negation) overflows.
   */
  predicate NoOverflow(d: Directive, x: int)
  {
    match d
    case Single(y) => IsInt32(y)
    case Run(y, count) => IsInt32(y) && IsInt32(count) && (count > 0 ==> x + count <= Int32Max)
    case Ramp(y, top, step) =>
      && IsInt32(y) && IsInt32(top) && IsInt32(step)
      && step != Int32Min
      && Int32Min < top - ClampHeight(y)
  }

  /**
   * A directive at column x stays inside the grid (the columns and rows it
   * fills exist) and its arithmetic does not overflow.
   */
  predicate Fits(d: Directive, x: int, width: int, height: int)
    requires x <= width
  {
    && NoOverflow(d, x)
    && (d.Ramp? ==> d.step != 0)
    && var hs := ColumnHeights(d, x, width);
       && x + |hs| <= width
       && forall i :: 0 <= i < |hs| ==> hs[i] < height
  }

  /** Every directive the loader reaches fits (a ramp is not clamped to the grid by the loader). */
  predicate Loadable(ds: seq<Directive>, x: int, width: int, height: int)
    requires x <= width
    decreases |ds|
  {
    |ds| == 0 || x >= width ||
    (Fits(ds[0], x, width, height) && Loadable(ds[1..], x + |ColumnHeights(ds[0], x, width)|, width, height))
  }

  /** The heights of consecutive column groups, laid end to end. */
  function Flatten(chunks: seq<seq<int>>): (r: seq<int>)
    decreases |chunks|
  {
    if |chunks| == 0 then [] else chunks[0] + Flatten(chunks[1..])
  }

  lemma FlattenCons(h: seq<int>, rest: seq<seq<int>>)
    ensures Flatten([h] + rest) == h + Flatten(rest)
  {
    assert ([h] + rest)[1..] == rest;
  }

  /** The height list of each directive the loader reaches, starting at column x. */
  function Chunks(ds: seq<Directive>, x: int, width: int, height: int): (r: seq<seq<int>>)
    requires x <= width
    requires Loadable(ds, x, width, height)
    ensures x + |Flatten(r)| <= width
    ensures forall i :: 0 <= i < |Flatten(r)| ==> Flatten(r)[i] < height
    decreases |ds|
  {
    if |ds| == 0 || x >= width then []
    else
      var hs := ColumnHeights(ds[0], x, width);
      var rest := Chunks(ds[1..], x + |hs|, width, height);
      FlattenCons(hs, rest);
      [hs] + rest
  }

  /** The heights the profile gives to the columns from x on, in order. */
  function ProfileHeights(ds: seq<Directive>, x: int, width: int, height: int): (hs: seq<int>)
    requires x <= width
    requires Loadable(ds, x, width, height)
    ensures x + |hs| <= width
    ensures forall i :: 0 <= i < |hs| ==> hs[i] < height
  {
    Flatten(Chunks(ds, x, width, height))
  }

  /**
   * r is cells with the columns x, x+1, ... filled up to the heights hs, and
   * every other cell as it was.
   */
  ghost predicate FilledFrom(r: seq<Column>, cells: seq<Column>, x: int, hs: seq<int>)
  {
    && |r| == |cells|
    && (forall c {:trigger r[c]} :: 0 <= c < |cells| ==> |r[c]| == |cells[c]|)
    && forall c, y {:trigger r[c][y]} :: 0 <= c < |cells| && 0 <= y < |cells[c]| ==>
         r[c][y] == if x <= c < x + |hs| then y <= hs[c - x] || cells[c][y] else cells[c][y]
  }

  /** Fills columns x, x+1, ... up to the heights hs. */
  function FillColumns(cells: seq<Column>, x: int, hs: seq<int>): (r: seq<Column>)
    requires 0 <= x && x + |hs| <= |cells|
    requires forall i :: 0 <= i < |hs| ==> hs[i] < |cells[x + i]|
    ensures FilledFrom(r, cells, x, hs)
  {
    seq(|cells|, c requires 0 <= c < |cells| =>
      if x <= c < x + |hs| then FillTo(cells[c], hs[c - x]) else cells[c])
  }

  /** The loader loop: fill each directive's columns in turn, left to right. */
  function LoadChunks(cells: seq<Column>, chunks: seq<seq<int>>, x: int, height: int): (r: seq<Column>)
    requires 0 <= x && x + |Flatten(chunks)| <= |cells|
    requires forall c :: 0 <= c < |cells| ==> |cells[c]| == height
    requires forall i :: 0 <= i < |Flatten(chunks)| ==> Flatten(chunks)[i] < height
    ensures |r| == |cells| && forall c :: 0 <= c < |r| ==> |r[c]| == height
    decreases |chunks|
  {
    if |chunks| == 0 then cells
    else
      var hs := chunks[0];
      assert Flatten(chunks) == hs + Flatten(chunks[1..]);
      assert forall i :: 0 <= i < |hs| ==> hs[i] == Flatten(chunks)[i];
      assert forall i :: 0 <= i < |Flatten(chunks[1..])| ==> Flatten(chunks[1..])[i] == Flatten(chunks)[|hs| + i];
      LoadChunks(FillColumns(cells, x, hs), chunks[1..], x + |hs|, height)
  }

  /** Filling columns at x up to the heights a, then from x + |a| up to the heights b, fills from x up to a + b. */
  lemma FillsCompose(cells: seq<Column>, next: seq<Column>, r: seq<Column>, x: int, a: seq<int>, b: seq<int>, hs: seq<int>)
    requires FilledFrom(next, cells, x, a)
    requires FilledFrom(r, next, x + |a|, b)
    requires hs == a + b
    ensures FilledFrom(r, cells, x, hs)
  {
  }

  /**
   * The loader's first step: it fills the first chunk's columns and then
   * loads the remaining chunks after them, so a fill by the remaining chunks
   * extends to a fill by all of them.
   */
  lemma LoadChunksUnfold(cells: seq<Column>, chunks: seq<seq<int>>, x: int, height: int)
    requires 0 <= x && x + |Flatten(chunks)| <= |cells| && |chunks| > 0
    requires forall c :: 0 <= c < |cells| ==> |cells[c]| == height
    requires forall i :: 0 <= i < |Flatten(chunks)| ==> Flatten(chunks)[i] < height
    ensures forall i :: 0 <= i < |chunks[0]| ==> chunks[0][i] < |cells[x + i]|
    ensures var next := FillColumns(cells, x, chunks[0]);
      && x + |chunks[0]| + |Flatten(chunks[1..])| <= |next|
      && (forall c :: 0 <= c < |next| ==> |next[c]| == height)
      && (forall i :: 0 <= i < |Flatten(chunks[1..])| ==> Flatten(chunks[1..])[i] < height)
      && (FilledFrom(LoadChunks(next, chunks[1..], x + |chunks[0]|, height), next, x + |chunks[0]|, Flatten(chunks[1..])) ==>
            FilledFrom(LoadChunks(cells, chunks, x, height), cells, x, Flatten(chunks)))
  {
    var h0, rest := chunks[0], Flatten(chunks[1..]);
    assert Flatten(chunks) == h0 + rest;
    forall i | 0 <= i < |rest|
      ensures rest[i] < height
    {
      assert rest[i] == Flatten(chunks)[|h0| + i];
    }
    forall i | 0 <= i < |h0|
      ensures h0[i] < |cells[x + i]|
    {
      assert h0[i] == Flatten(chunks)[i];
    }
    var next := FillColumns(cells, x, h0);
    var r := LoadChunks(next, chunks[1..], x + |h0|, height);
    if FilledFrom(r, next, x + |h0|, rest) {
      FillsCompose(cells, next, r, x, h0, rest, Flatten(chunks));
    }
  }

  /**
   * The loader fills each column of the flattened height list up to its
   * height, in order from column x, and touches no other column.
   */
  lemma {:induction false} LoadChunksFillsHeights(cells: seq<Column>, chunks: seq<seq<int>>, x: int, height: int)
    requires 0 <= x && x + |Flatten(chunks)| <= |cells|
    requires forall c :: 0 <= c < |cells| ==> |cells[c]| == height
    requires forall i :: 0 <= i < |Flatten(chunks)| ==> Flatten(chunks)[i] < height
    ensures FilledFrom(LoadChunks(cells, chunks, x, height), cells, x, Flatten(chunks))
    decreases |chunks|
  {
    if |chunks| > 0 {
      LoadChunksUnfold(cells, chunks, x, height);
      LoadChunksFillsHeights(FillColumns(cells, x, chunks[0]), chunks[1..], x + |chunks[0]|, height);
    } else {
      assert LoadChunks(cells, chunks, x, height) == cells;
      assert FilledFrom(cells, cells, x, []);
    }
  }

  /** A directive fills no row above 511 unless it is a ramp whose top lies above row 512. */
  lemma DirectiveBelowTileTop(d: Directive, x: int, width: int)
    requires x <= width
    requires d.Ramp? ==> d.step != 0 && d.top <= TileRows
    ensures forall i :: 0 <= i < |ColumnHeights(d, x, width)| ==> ColumnHeights(d, x, width)[i] < TileRows
  {
    if d.Ramp? {
      RampHeightsBetween(d, x, width);
    }
  }

  /** Profiles whose ramps stay at or below row 512 fill no row above 511. */
  lemma {:induction false} ProfileHeightsBelowTileTop(ds: seq<Directive>, x: int, width: int, height: int)
    requires x <= width
    requires Loadable(ds, x, width, height)
    requires forall k :: 0 <= k < |ds| && ds[k].Ramp? ==> ds[k].top <= TileRows
    ensures forall i :: 0 <= i < |ProfileHeights(ds, x, width, height)| ==> ProfileHeights(ds, x, width, height)[i] < TileRows
    decreases |ds|
  {
    if |ds| > 0 && x < width {
      var h0 := ColumnHeights(ds[0], x, width);
      DirectiveBelowTileTop(ds[0], x, width);
      assert forall k :: 0 <= k < |ds[1..]| ==> ds[1..][k] == ds[k + 1];
      ProfileHeightsBelowTileTop(ds[1..], x + |h0|, width, height);
      var rest := Chunks(ds[1..], x + |h0|, width, height);
      assert Chunks(ds, x, width, height) == [h0] + rest;
      FlattenCons(h0, rest);
      var hs := h0 + Flatten(rest);
      assert forall i :: |h0| <= i < |hs| ==> hs[i] == ProfileHeights(ds[1..], x + |h0|, width, height)[i - |h0|];
    }
  }

  /**
   * The constructor: fails with "Could not open terrain file: <reason>" when
   * the file cannot be read; otherwise starts from an all-empty grid, applies
   * the profile and builds the tiles.
   */
  method Load(file: ProfileFile, width: int, height: int, surfacesCreated: bool) returns (r: Result<Terrain, string>)
    requires 1 <= width <= TiledWidth && height >= TileRows
    requires file.Readable? ==> Loadable(file.directives, 0, width, height)
    ensures file.Unreadable? ==> r == Err("Could not open terrain file: " + file.reason)
    ensures file.Readable? ==> r.Ok?
    ensures r.Ok? ==>
      && r.value.Valid() && r.value.Mirrored()
      && r.value.width == width && r.value.height == height
      && r.value.lastDeform.None?
      && (r.value.tiles.Some? <==> surfacesCreated)
    ensures r.Ok? ==>
      var hs := ProfileHeights(file.directives, 0, width, height);
      && |hs| <= width
      && forall x, y :: 0 <= x < width && 0 <= y < height ==> (r.value.cells[x][y] <==> x < |hs| && y <= hs[x])
    ensures r.Ok? ==> forall x :: 0 <= x < width ==> SolidPrefix(r.value.cells[x])
    ensures r.Ok? && (forall k :: 0 <= k < |file.directives| && file.directives[k].Ramp? ==> file.directives[k].top <= TileRows) ==>
      r.value.SolidBelowTileTop()
  {
    if file.Unreadable? {
      return Err("Could not open terrain file: " + file.reason);
    }
    var ds := file.directives;
    var empty: seq<Column> := seq(width, _ => seq(height, _ => false));
    assert forall c, y :: 0 <= c < width && 0 <= y < height ==> !empty[c][y];
    var chunks := Chunks(ds, 0, width, height);
    var hs := ProfileHeights(ds, 0, width, height);
    var cells := LoadChunks(empty, chunks, 0, height);
    LoadChunksFillsHeights(empty, chunks, 0, height);
    assert hs == Flatten(chunks) && |empty| == width;
    assert FilledFrom(cells, empty, 0, hs);
    forall x, y | 0 <= x < width && 0 <= y < height
      ensures cells[x][y] <==> x < |hs| && y <= hs[x]
    {
      assert |empty[x]| == height;
      assert cells[x][y] == if 0 <= x < 0 + |hs| then y <= hs[x - 0] || empty[x][y] else empty[x][y];
    }
    var t := Terrain(width, height, cells, None, None);
    if forall k :: 0 <= k < |ds| && ds[k].Ramp? ==> ds[k].top <= TileRows {
      ProfileHeightsBelowTileTop(ds, 0, width, height);
    }
    t := CreateTextures(t, surfacesCreated);
    r := Ok(t);
  }
}

=== FILE: results.dfy ===
/** Option and Result values for the fallible steps of the terrain model. */
module Results {

  /** A value that may be absent (a surface that could not be created, no crater yet). */
  datatype Option<+T> = None | Some(value: T)

  /** The outcome of an operation that can fail with an error of type E. */
  datatype Result<+T, +E> = Ok(value: T) | Err(error: E)
}

=== FILE: settling.dfy ===
/**
 * Gravity settling. Each column is scanned upward from a start row; every
 * solid cell whose lower neighbour is empty drops, by swapping, onto the
 * nearest solid cell within `maxFall` rows below it, or to the bottom of
 * that window. The public slide settles the columns around the last crater.
 */
module Settling {
  import opened Cells
  import opened Tiles
  import opened TerrainState

  function Max(a: int, b: int): int
  {
    if a < b then b else a
  }

  /** One swap made by the column settle: the solid cell at row `from` drops to row `to`. */
  datatype Drop = Drop(from: int, to: int)

  /** The solid cell at row j of c has an empty cell below it. */
  predicate Hangs(c: Column, j: int)
  {
    1 <= j < |c| && c[j] && !c[j - 1]
  }

  /** Some drop of ds fell the whole fall window and came to rest at row j. */
  predicate LandedAt(ds: seq<Drop>, j: int, maxFall: int)
  {
    exists k :: 0 <= k < |ds| && ds[k].to == j && ds[k].from - maxFall == j
  }

  /** The column after performing the drops in order. */
  function Replay(c: Column, ds: seq<Drop>): (r: Column)
    requires forall k :: 0 <= k < |ds| ==> 0 <= ds[k].to < |c| && 0 <= ds[k].from < |c|
    ensures |r| == |c|
    ensures multiset(r) == multiset(c)
    decreases |ds|
  {
    if |ds| == 0 then c
    else
      var d := ds[|ds| - 1];
      SwapRows(Replay(c, ds[..|ds| - 1]), d.from, d.to)
  }

  /** Appending a drop replays it after the earlier ones and leaves their prefixes alone. */
  lemma ReplayAppend(c: Column, ds: seq<Drop>, d: Drop, maxFall: int)
    requires forall k :: 0 <= k < |ds| ==> 0 <= ds[k].to < |c| && 0 <= ds[k].from < |c|
    requires 0 <= d.to < |c| && 0 <= d.from < |c|
    ensures Replay(c, ds + [d]) == SwapRows(Replay(c, ds), d.from, d.to)
    ensures LegalTrace(c, ds + [d], maxFall) <==> LegalTrace(c, ds, maxFall) && LegalDrop(Replay(c, ds), d, maxFall)
  {
    assert (ds + [d])[..|ds|] == ds;
  }

  /**
   * A drop is legal in column `cur` when it moves a solid cell down into the
   * empty run below it, no further than `maxFall` rows, and lands either on
   * a solid cell or at the bottom of the fall window.
   */
  predicate LegalDrop(cur: Column, d: Drop, maxFall: int)
  {
    && Max(0, d.from - maxFall) <= d.to < d.from < |cur|
    && cur[d.from]
    && (forall j :: d.to <= j < d.from ==> !cur[j])
    && (d.to == Max(0, d.from - maxFall) || cur[d.to - 1])
  }

  /** Every drop of `ds` is legal in the column as the earlier drops left it. */
  predicate LegalTrace(c: Column, ds: seq<Drop>, maxFall: int)
    requires forall k :: 0 <= k < |ds| ==> 0 <= ds[k].to < |c| && 0 <= ds[k].from < |c|
    decreases |ds|
  {
    |ds| == 0 || (LegalTrace(c, ds[..|ds| - 1], maxFall) && LegalDrop(Replay(c, ds[..|ds| - 1]), ds[|ds| - 1], maxFall))
  }

  /** A legal trace is legal drop by drop: the k-th drop is legal in the column the first k drops leave. */
  lemma {:induction false} LegalTraceAt(c: Column, ds: seq<Drop>, maxFall: int, k: int)
    requires forall i :: 0 <= i < |ds| ==> 0 <= ds[i].to < |c| && 0 <= ds[i].from < |c|
    requires LegalTrace(c, ds, maxFall)
    requires 0 <= k < |ds|
    ensures LegalDrop(Replay(c, ds[..k]), ds[k], maxFall)
    decreases |ds|
  {
    var n := |ds| - 1;
    var prefix := ds[..n];
    if k < n {
      LegalTraceAt(c, prefix, maxFall, k);
      assert ds[..k] == prefix[..k];
      assert ds[k] == prefix[k];
    }
  }

  /** Rows j and above hold no solid cell. */
  predicate ClearFrom(c: Column, j: int)
  {
    forall i :: 0 <= i < |c| && j <= i ==> !c[i]
  }

  /**
   * Where the cell at row y comes to rest: the search runs down from y-1 to
   * max(0, y - maxFall); a solid cell at y-1 means no move, a solid cell at
   * i lower down means rest at i+1, and none means rest at the window bottom.
   */
  method FallTarget(c: Column, y: int, maxFall: int) returns (target: int)
    requires 0 <= y < |c|
    ensures target <= y
    ensures target == y <==> (y == 0 || maxFall <= 0 || c[y - 1])
    ensures target < y ==>
      && Max(0, y - maxFall) <= target
      && (forall j :: target <= j < y ==> !c[j])
      && (target == Max(0, y - maxFall) || c[target - 1])
    ensures target < y && c[y] ==> LegalDrop(c, Drop(y, target), maxFall)
  {
    var ye := Max(0, y - maxFall);
    var i := y - 1;
    while i >= ye
      invariant i <= y - 1
      invariant i >= ye || i == y - 1
      invariant forall j :: i < j < y ==> !c[j]
    {
      if c[i] {
        if i == y - 1 {
          return y;
        }
        return i + 1;
      } else if i == ye {
        return ye;
      }
      i := i - 1;
    }
    return y;
  }

  /**
   * The settle loop's trace after rows [start, y) have been visited: the
   * drops replay to `settled`, rows from y up are untouched, every drop was
   * legal when made and came from a solid row, and source rows increase.
   */
  ghost predicate TraceUpTo(c: Column, start: int, maxFall: int, y: int, settled: Column, drops: seq<Drop>)
  {
    && 0 <= start <= y <= |c|
    && |settled| == |c|
    && (forall k :: 0 <= k < |drops| ==> 0 <= drops[k].to < drops[k].from < y && start <= drops[k].from)
    && settled == Replay(c, drops)
    && (forall j :: y <= j < |c| ==> settled[j] == c[j])
    && (forall k :: 0 <= k < |drops| ==> c[drops[k].from])
    && LegalTrace(c, drops, maxFall)
    && (forall k, l :: 0 <= k < l < |drops| ==> drops[k].from < drops[l].from)
  }

  /**
   * What the trace amounts to: dirt moved iff some visited solid row had an
   * empty row below it, nothing moves without a fall window, and a clear
   * top of the column stays clear.
   */
  ghost predicate SummaryUpTo(c: Column, start: int, maxFall: int, y: int, settled: Column, drops: seq<Drop>)
    requires y <= |c|
  {
    && (maxFall >= 1 ==> (|drops| > 0 <==> exists j :: Max(start, 1) <= j < y && c[j] && !c[j - 1]))
    && (maxFall < 1 ==> drops == [])
    && (forall j :: ClearFrom(c, j) ==> ClearFrom(settled, j))
  }

  /** A settle from row 0 with a fall window as tall as the column has compacted the rows it visited. */
  ghost predicate CompactUpTo(c: Column, start: int, maxFall: int, y: int, settled: Column)
    requires 0 <= y <= |settled|
  {
    start == 0 && maxFall >= |c| ==> SolidPrefix(settled[..y])
  }

  /**
   * No visited cell hangs unless it fell the whole window: the settle
   * skips no cell that could still fall.
   */
  ghost predicate RestUpTo(start: int, maxFall: int, y: int, settled: Column, drops: seq<Drop>)
  {
    maxFall >= 1 ==> forall j :: start <= j < y && Hangs(settled, j) ==> LandedAt(drops, j, maxFall)
  }

  ghost predicate SettledUpTo(c: Column, start: int, maxFall: int, y: int, settled: Column, drops: seq<Drop>)
  {
    && TraceUpTo(c, start, maxFall, y, settled, drops)
    && SummaryUpTo(c, start, maxFall, y, settled, drops)
    && CompactUpTo(c, start, maxFall, y, settled)
    && RestUpTo(start, maxFall, y, settled, drops)
  }

  /** A visited cell that stays rests on a solid cell (or on the bottom), so it does not hang. */
  lemma StayKeepsRest(start: int, maxFall: int, y: int, settled: Column, drops: seq<Drop>)
    requires 0 <= y < |settled| && RestUpTo(start, maxFall, y, settled, drops)
    requires !settled[y] || y == 0 || maxFall <= 0 || settled[y - 1]
    ensures RestUpTo(start, maxFall, y + 1, settled, drops)
  {
  }

  /**
   * A drop from row y lands on a solid cell or at the bottom of its window,
   * and empties only row y, so the only new hanging cell is one that fell
   * the whole window.
   */
  lemma DropKeepsRest(start: int, maxFall: int, y: int, settled: Column, drops: seq<Drop>, target: int)
    requires 0 <= y < |settled| && RestUpTo(start, maxFall, y, settled, drops)
    requires LegalDrop(settled, Drop(y, target), maxFall)
    ensures RestUpTo(start, maxFall, y + 1, SwapRows(settled, y, target), drops + [Drop(y, target)])
  {
    var drops' := drops + [Drop(y, target)];
    var settled' := SwapRows(settled, y, target);
    forall j | LandedAt(drops, j, maxFall)
      ensures LandedAt(drops', j, maxFall)
    {
      var k :| 0 <= k < |drops| && drops[k].to == j && drops[k].from - maxFall == j;
      assert drops'[k] == drops[k];
    }
    if maxFall >= 1 {
      forall j | start <= j < y + 1 && Hangs(settled', j)
        ensures LandedAt(drops', j, maxFall)
      {
        if j == target {
          assert drops'[|drops|] == Drop(y, target);
        } else {
          assert Hangs(settled, j);
        }
      }
    }
  }

  /** Visiting row y keeps the visited rows compacted: a cell that stays rests on solid ground. */
  lemma StayKeepsCompact(c: Column, start: int, maxFall: int, y: int, settled: Column)
    requires 0 <= y < |settled| == |c| && CompactUpTo(c, start, maxFall, y, settled)
    requires !settled[y] || y == 0 || maxFall <= 0 || settled[y - 1]
    ensures CompactUpTo(c, start, maxFall, y + 1, settled)
  {
    if start == 0 && maxFall >= |c| {
      assert settled[..y + 1][..y] == settled[..y];
    }
  }

  /** Visiting row y keeps the visited rows compacted: a falling cell lands on top of the compacted rows. */
  lemma DropKeepsCompact(c: Column, start: int, maxFall: int, y: int, settled: Column, target: int)
    requires 0 <= y < |settled| == |c| && CompactUpTo(c, start, maxFall, y, settled)
    requires LegalDrop(settled, Drop(y, target), maxFall)
    ensures CompactUpTo(c, start, maxFall, y + 1, SwapRows(settled, y, target))
  {
    if start == 0 && maxFall >= |c| {
      var settled' := SwapRows(settled, y, target);
      assert Max(0, y - maxFall) == 0;
      var visited := settled'[..y + 1];
      var before := settled[..y];
      forall r | 0 < r < |visited| && visited[r]
        ensures visited[r - 1]
      {
        if r < target {
          assert before[r];
        } else if r == target {
          assert before[r - 1];
        }
      }
    }
  }

  /** A visited row that does not fall leaves the settle state as it was. */
  lemma StayKeepsSettled(c: Column, start: int, maxFall: int, y: int, settled: Column, drops: seq<Drop>)
    requires y < |c| && SettledUpTo(c, start, maxFall, y, settled, drops)
    requires !settled[y] || y == 0 || maxFall <= 0 || settled[y - 1]
    ensures SettledUpTo(c, start, maxFall, y + 1, settled, drops)
  {
    if maxFall >= 1 && |drops| == 0 {
      assert settled == c;
    }
    StayKeepsCompact(c, start, maxFall, y, settled);
    StayKeepsRest(start, maxFall, y, settled, drops);
  }

  /** Appending a drop from row y, above every earlier source row, keeps the drops' rows ordered and in range. */
  lemma AppendKeepsOrder(c: Column, start: int, y: int, drops: seq<Drop>, target: int)
    requires start <= y < |c| && 0 <= target < y && c[y]
    requires forall k :: 0 <= k < |drops| ==> 0 <= drops[k].to < drops[k].from < y && start <= drops[k].from
    requires forall k :: 0 <= k < |drops| ==> c[drops[k].from]
    requires forall k, l :: 0 <= k < l < |drops| ==> drops[k].from < drops[l].from
    ensures var drops' := drops + [Drop(y, target)];
      && (forall k :: 0 <= k < |drops'| ==> 0 <= drops'[k].to < drops'[k].from < y + 1 && start <= drops'[k].from)
      && (forall k :: 0 <= k < |drops'| ==> c[drops'[k].from])
      && (forall k, l :: 0 <= k < l < |drops'| ==> drops'[k].from < drops'[l].from)
  {
    var drops' := drops + [Drop(y, target)];
    assert forall k :: 0 <= k < |drops| ==> drops'[k] == drops[k];
  }

  /** A legal drop at row y extends the trace by one entry. */
  lemma DropKeepsTrace(c: Column, start: int, maxFall: int, y: int, settled: Column, drops: seq<Drop>, target: int)
    requires y < |c| && TraceUpTo(c, start, maxFall, y, settled, drops)
    requires LegalDrop(settled, Drop(y, target), maxFall)
    ensures TraceUpTo(c, start, maxFall, y + 1, SwapRows(settled, y, target), drops + [Drop(y, target)])
  {
    var d := Drop(y, target);
    var drops' := drops + [d];
    var settled' := SwapRows(settled, y, target);
    ReplayAppend(c, drops, d, maxFall);
    assert c[y] == settled[y];
    AppendKeepsOrder(c, start, y, drops, target);
    assert forall j :: y + 1 <= j < |c| ==> settled'[j] == c[j];
  }

  /** A legal drop at row y keeps the summary: dirt has now moved, and only downward. */
  lemma DropKeepsSummary(c: Column, start: int, maxFall: int, y: int, settled: Column, drops: seq<Drop>, target: int)
    requires y < |c| && TraceUpTo(c, start, maxFall, y, settled, drops)
    requires SummaryUpTo(c, start, maxFall, y, settled, drops)
    requires LegalDrop(settled, Drop(y, target), maxFall)
    ensures SummaryUpTo(c, start, maxFall, y + 1, SwapRows(settled, y, target), drops + [Drop(y, target)])
  {
    var settled' := SwapRows(settled, y, target);
    assert maxFall >= 1 by {
      assert Max(0, y - maxFall) < y;
    }
    if |drops| == 0 {
      assert settled == c;
      assert c[y] && y >= Max(start, 1) && !c[y - 1];
    }
    forall j | ClearFrom(c, j)
      ensures ClearFrom(settled', j)
    {
      assert c[y];
      assert ClearFrom(settled, j);
      forall i | 0 <= i < |settled'| && j <= i
        ensures !settled'[i]
      {
        assert settled'[i] == settled[i];
      }
    }
  }

  /** One pass of the settle loop: row y drops to its fall target if it is solid and can fall. */
  method SettleRow(c: Column, start: int, maxFall: int, y: int, settled: Column, drops: seq<Drop>)
    returns (settled': Column, drops': seq<Drop>, next: int)
    requires y < |c| && SettledUpTo(c, start, maxFall, y, settled, drops)
    ensures next == y + 1 && SettledUpTo(c, start, maxFall, next, settled', drops')
  {
    settled', drops', next := settled, drops, y + 1;
    if settled[y] {
      var target := FallTarget(settled, y, maxFall);
      if target < y {
        DropKeepsTrace(c, start, maxFall, y, settled, drops, target);
        DropKeepsSummary(c, start, maxFall, y, settled, drops, target);
        DropKeepsCompact(c, start, maxFall, y, settled, target);
        DropKeepsRest(start, maxFall, y, settled, drops, target);
        settled' := SwapRows(settled, y, target);
        drops' := drops + [Drop(y, target)];
        return;
      }
    }
    StayKeepsSettled(c, start, maxFall, y, settled, drops);
  }

  /** Before any row is visited, nothing has moved. */
  lemma SettledInitially(c: Column, start: int, maxFall: int)
    requires 0 <= start < |c|
    ensures SettledUpTo(c, start, maxFall, start, c, [])
  {
    assert c[..0] == [];
  }

  /** Once every row is visited, the settle state is the settle's outcome. */
  lemma SettledFinally(c: Column, start: int, maxFall: int, y: int, settled: Column, drops: seq<Drop>)
    requires SettledUpTo(c, start, maxFall, y, settled, drops) && y == |c|
    ensures forall k :: 0 <= k < |drops| ==> 0 <= drops[k].to < drops[k].from < |c| && start <= drops[k].from
    ensures settled == Replay(c, drops)
    ensures forall k :: 0 <= k < |drops| ==> c[drops[k].from]
    ensures LegalTrace(c, drops, maxFall)
    ensures forall k, l :: 0 <= k < l < |drops| ==> drops[k].from < drops[l].from
    ensures maxFall >= 1 ==> (|drops| > 0 <==> exists y :: Max(start, 1) <= y < |c| && c[y] && !c[y - 1])
    ensures maxFall < 1 ==> drops == []
    ensures forall j :: ClearFrom(c, j) ==> ClearFrom(settled, j)
    ensures start == 0 && maxFall >= |c| ==> SolidPrefix(settled)
    ensures maxFall >= 1 ==> forall j :: start <= j < |c| && Hangs(settled, j) ==> LandedAt(drops, j, maxFall)
  {
    assert settled[..|c|] == settled;
  }

  /**
   * Settles one column from row `start` upward and reports the drops made,
   * in order. The drops replay to the result, each is legal in the column
   * as it stands when it is made, and each source row is visited once.
   */
  method SettleColumn(c: Column, start: int, maxFall: int) returns (settled: Column, drops: seq<Drop>)
    requires 0 <= start < |c|
    ensures forall k :: 0 <= k < |drops| ==> 0 <= drops[k].to < drops[k].from < |c| && start <= drops[k].from
    ensures settled == Replay(c, drops)
    ensures forall k :: 0 <= k < |drops| ==> c[drops[k].from]
    ensures LegalTrace(c, drops, maxFall)
    ensures forall k, l :: 0 <= k < l < |drops| ==> drops[k].from < drops[l].from
    ensures maxFall >= 1 ==> (|drops| > 0 <==> exists y :: Max(start, 1) <= y < |c| && c[y] && !c[y - 1])
    ensures maxFall < 1 ==> drops == []
    ensures forall j :: ClearFrom(c, j) ==> ClearFrom(settled, j)
    ensures start == 0 && maxFall >= |c| ==> SolidPrefix(settled)
    ensures maxFall >= 1 ==> forall j :: start <= j < |c| && Hangs(settled, j) ==> LandedAt(drops, j, maxFall)
  {
    var y;
    settled, drops, y := SettleRows(c, start, maxFall);
    SettledFinally(c, start, maxFall, y, settled, drops);
  }

  /** The settle loop itself: visits rows start, start + 1, ... up to the top row. */
  method SettleRows(c: Column, start: int, maxFall: int) returns (settled: Column, drops: seq<Drop>, y: int)
    requires 0 <= start < |c|
    ensures y == |c| && SettledUpTo(c, start, maxFall, y, settled, drops)
  {
    settled := c;
    drops := [];
    SettledInitially(c, start, maxFall);
    y := start;
    while y < |c|
      invariant y <= |c|
      invariant SettledUpTo(c, start, maxFall, y, settled, drops)
      decreases |c| - y
    {
      settled, drops, y := SettleRow(c, start, maxFall, y, settled, drops);
    }
  }

  /** Swapping two rows of one column through the terrain changes that column only, as a row swap. */
  lemma SwapPointsInColumn(t: Terrain, x: int, i: int, j: int)
    requires t.Valid() && t.tiles.Some?
    requires 0 <= x < t.width && 0 <= i < TileRows && 0 <= j < TileRows
    ensures SwapPoints(t, x, i, x, j).cells == t.cells[x := SwapRows(t.cells[x], i, j)]
  {
    var u := SwapPoints(t, x, i, x, j);
    CellsExtensional(u.cells, t.cells[x := SwapRows(t.cells[x], i, j)], t.height);
  }

  /** Every drop of ds moves between rows of the tiles. */
  predicate DropsInTiles(ds: seq<Drop>)
  {
    forall k :: 0 <= k < |ds| ==> 0 <= ds[k].to < TileRows && 0 <= ds[k].from < TileRows
  }

  /** One more drop through swap_points extends the replay on the terrain by that drop. */
  lemma {:induction false} ReplayStep(t: Terrain, prev: Terrain, x: int, ds: seq<Drop>)
    requires t.Valid() && t.tiles.Some? && 0 <= x < t.width && |ds| > 0
    requires forall k :: 0 <= k < |ds| ==> 0 <= ds[k].to < TileRows && 0 <= ds[k].from < TileRows
    requires prev.Valid() && prev.tiles.Some?
    requires prev.width == t.width && prev.height == t.height && prev.lastDeform == t.lastDeform
    requires prev.cells == t.cells[x := Replay(t.cells[x], ds[..|ds| - 1])]
    requires forall x', y :: 0 <= x' < TiledWidth && 0 <= y < TileRows && x' != x ==>
               PixelAt(prev.tiles.value, x', y) == PixelAt(t.tiles.value, x', y)
    requires t.Mirrored() ==> prev.Mirrored()
    ensures var d := ds[|ds| - 1]; var r := SwapPoints(prev, x, d.from, x, d.to);
      && r.Valid() && r.tiles.Some?
      && r.width == t.width && r.height == t.height && r.lastDeform == t.lastDeform
      && r.cells == t.cells[x := Replay(t.cells[x], ds)]
      && (forall x', y :: 0 <= x' < TiledWidth && 0 <= y < TileRows && x' != x ==>
            PixelAt(r.tiles.value, x', y) == PixelAt(t.tiles.value, x', y))
      && (t.Mirrored() ==> r.Mirrored())
  {
    var d := ds[|ds| - 1];
    SwapPointsInColumn(prev, x, d.from, d.to);
  }

  /** Performs the drops on the terrain as swap_points calls within one column. */
  function ReplayOnTerrain(t: Terrain, x: int, ds: seq<Drop>): (r: Terrain)
    requires t.Valid() && t.tiles.Some? && 0 <= x < t.width
    requires DropsInTiles(ds)
    ensures r.Valid() && r.tiles.Some?
    ensures r.width == t.width && r.height == t.height && r.lastDeform == t.lastDeform
    ensures r.cells == t.cells[x := Replay(t.cells[x], ds)]
    ensures forall x', y :: 0 <= x' < TiledWidth && 0 <= y < TileRows && x' != x ==>
              PixelAt(r.tiles.value, x', y) == PixelAt(t.tiles.value, x', y)
    ensures t.Mirrored() ==> r.Mirrored()
    decreases |ds|
  {
    if |ds| == 0 then t
    else
      var d := ds[|ds| - 1];
      var prev := ReplayOnTerrain(t, x, ds[..|ds| - 1]);
      ReplayStep(t, prev, x, ds);
      SwapPoints(prev, x, d.from, x, d.to)
  }

  /**
   * Column r is column c settled by the drops ds: each drop takes a solid
   * cell from a row at or above `start` down to a lower row, the source rows
   * increase (each row is visited once, bottom up), every drop is legal in
   * the column as the earlier drops left it, the drops replay c to r, and
   * no solid cell from row `start` up is left over an empty one unless it
   * fell the whole window (the settle skipped no cell that could fall).
   */
  ghost predicate SettledBy(c: Column, ds: seq<Drop>, r: Column, start: int, maxFall: int)
  {
    && (forall k :: 0 <= k < |ds| ==> start <= ds[k].from < |c| && 0 <= ds[k].to < ds[k].from)
    && (forall k, l :: 0 <= k < l < |ds| ==> ds[k].from < ds[l].from)
    && LegalTrace(c, ds, maxFall)
    && r == Replay(c, ds)
    && (maxFall >= 1 ==> forall j :: start <= j < |c| && Hangs(r, j) ==> LandedAt(ds, j, maxFall))
  }

  /**
   * The per-column slide: settles column `column` from row `start` with a
   * fall window of `maxFall` rows (the source's ceil(190 * elapsed)),
   * swapping cells and tile pixels together. Returns the drops it made and
   * whether dirt moved.
   */
  method SlideColumn(t: Terrain, column: int, start: int, maxFall: int) returns (r: Terrain, drops: seq<Drop>, moved: bool)
    requires t.Valid() && t.tiles.Some?
    requires 0 <= column < t.width && 0 <= start < t.height
    requires ClearFrom(t.cells[column], TileRows)
    ensures r.Valid() && r.tiles.Some?
    ensures r.width == t.width && r.height == t.height && r.lastDeform == t.lastDeform
    ensures maxFall >= 1 ==>
      (moved <==> exists y :: Max(start, 1) <= y < t.height && t.cells[column][y] && !t.cells[column][y - 1])
    ensures SettledBy(t.cells[column], drops, r.cells[column], start, maxFall)
    ensures DropsInTiles(drops)
    ensures r == ReplayOnTerrain(t, column, drops)
    ensures forall x :: 0 <= x < t.width && x != column ==> r.cells[x] == t.cells[x]
    ensures forall x, y :: 0 <= x < TiledWidth && 0 <= y < TileRows && x != column ==>
              PixelAt(r.tiles.value, x, y) == PixelAt(t.tiles.value, x, y)
    ensures multiset(r.cells[column]) == multiset(t.cells[column])
    ensures forall j :: ClearFrom(t.cells[column], j) ==> ClearFrom(r.cells[column], j)
    ensures moved <==> |drops| > 0
    ensures maxFall < 1 ==> !moved
    ensures !moved ==> r == t
    ensures t.Mirrored() ==> r.Mirrored()
  {
    var settled;
    settled, drops := SettleColumn(t.cells[column], start, maxFall);
    r := ReplayOnTerrain(t, column, drops);
    moved := |drops| > 0;
  }

  /** Column x lies in the last crater's column range [cx - R, cx + R), inside the grid but short of its last column. */
  predicate CraterColumn(t: Terrain, x: int)
    requires t.lastDeform.Some?
  {
    var crater := t.lastDeform.value;
    && 0 <= x < t.width - 1
    && crater.centre.x - crater.radius <= x < crater.centre.x + crater.radius
  }

  /**
   * The region slide rescans: columns [xs, xe) and rows from ys, around the
   * last crater. The right end is clamped to width - 1 and excluded, so the
   * grid's last column is never rescanned.
   */
  function SettleSpan(t: Terrain): (span: (int, int, int))
    requires t.lastDeform.Some?
    ensures 0 <= span.0 && span.1 < t.width && 0 <= span.2
    ensures forall x :: span.0 <= x < span.1 <==> CraterColumn(t, x)
    ensures var yt := t.lastDeform.value.centre.y - t.lastDeform.value.radius;
      span.2 == (if yt < 0 then 0 else yt)
  {
    var crater := t.lastDeform.value;
    var x1 := crater.centre.x - crater.radius;
    var x2 := crater.centre.x + crater.radius;
    var yt := crater.centre.y - crater.radius;
    (if x1 < 0 then 0 else x1,
     if x2 >= t.width then t.width - 1 else x2,
     if yt < 0 then 0 else yt)
  }

  /** Every drop of every trace stays inside the tiles' rows. */
  predicate TracesInTiles(traces: seq<seq<Drop>>)
  {
    forall k :: 0 <= k < |traces| ==> DropsInTiles(traces[k])
  }

  /**
   * The terrain after the first `count` traces are performed through
   * swap_points on the columns xs, xs + 1, ..., one column after the other,
   * left to right.
   */
  function ReplaySpan(t: Terrain, xs: int, traces: seq<seq<Drop>>, count: nat): (r: Terrain)
    requires t.Valid() && t.tiles.Some? && 0 <= xs && count <= |traces|
    requires count > 0 ==> xs + count <= t.width
    requires TracesInTiles(traces)
    ensures r.Valid() && r.tiles.Some?
    ensures r.width == t.width && r.height == t.height && r.lastDeform == t.lastDeform
    decreases count
  {
    if count == 0 then t
    else ReplayOnTerrain(ReplaySpan(t, xs, traces, count - 1), xs + count - 1, traces[count - 1])
  }

  /** Replaying the first `count` traces looks at no later trace. */
  lemma {:induction false} ReplaySpanPrefix(t: Terrain, xs: int, a: seq<seq<Drop>>, b: seq<seq<Drop>>, count: nat)
    requires t.Valid() && t.tiles.Some? && 0 <= xs && count <= |a| && count <= |b|
    requires count > 0 ==> xs + count <= t.width
    requires TracesInTiles(a) && TracesInTiles(b)
    requires forall k :: 0 <= k < count ==> a[k] == b[k]
    ensures ReplaySpan(t, xs, a, count) == ReplaySpan(t, xs, b, count)
    decreases count
  {
    if count > 0 {
      ReplaySpanPrefix(t, xs, a, b, count - 1);
    }
  }

  /**
   * The slide loop's state after the span columns [xs, x) are settled: each
   * of them is its settle from row ys, every other column and its pixels
   * are as they were, and `moved` says whether any of them had a solid
   * cell at row max(ys, 1) or above over an empty one.
   */
  ghost predicate SlidUpTo(t: Terrain, maxFall: int, xs: int, ys: int, x: int, r: Terrain, traces: seq<seq<Drop>>, moved: bool)
    requires t.Valid() && t.tiles.Some? && 0 <= xs
  {
    && (xs < x ==> x <= t.width)
    && |traces| == x - xs
    && r.Valid() && r.tiles.Some?
    && r.width == t.width && r.height == t.height && r.lastDeform == t.lastDeform
    && (forall x' :: xs <= x' < x ==> SettledBy(t.cells[x'], traces[x' - xs], r.cells[x'], ys, maxFall))

    && (forall x' :: 0 <= x' < t.width && !(xs <= x' < x) ==> r.cells[x'] == t.cells[x'])
    && (forall x', y :: 0 <= x' < TiledWidth && 0 <= y < TileRows && !(xs <= x' < x) ==>
          PixelAt(r.tiles.value, x', y) == PixelAt(t.tiles.value, x', y))
    && (forall x', j :: 0 <= x' < t.width && ClearFrom(t.cells[x'], j) ==> ClearFrom(r.cells[x'], j))
    && (maxFall >= 1 ==>
          (moved <==> exists x', y :: xs <= x' < x && Max(ys, 1) <= y < t.height && t.cells[x'][y] && !t.cells[x'][y - 1]))
    && (!moved ==> r == t)
    && (t.Mirrored() ==> r.Mirrored())
  }

  /**
   * The slide loop's record of what it did: r is the traces performed on
   * the columns from xs on, and `moved` says whether any trace is non-empty
   * (never when the fall window is empty).
   */
  ghost predicate ReplayedUpTo(t: Terrain, maxFall: int, xs: int, r: Terrain, traces: seq<seq<Drop>>, moved: bool)
    requires t.Valid() && t.tiles.Some? && 0 <= xs
  {
    && (|traces| > 0 ==> xs + |traces| <= t.width)
    && TracesInTiles(traces)
    && r == ReplaySpan(t, xs, traces, |traces|)
    && (moved <==> exists k :: 0 <= k < |traces| && |traces[k]| > 0)
    && (maxFall < 1 ==> !moved)
  }

  /** Performing the next column's drops on r extends the record by that column's trace. */
  lemma ReplayStepKeeps(t: Terrain, maxFall: int, xs: int, x: int, r: Terrain, traces: seq<seq<Drop>>, moved: bool,
                        r': Terrain, drops: seq<Drop>, columnMoved: bool)
    requires t.Valid() && t.tiles.Some? && 0 <= xs && x == xs + |traces| && x < t.width
    requires ReplayedUpTo(t, maxFall, xs, r, traces, moved)
    requires DropsInTiles(drops)
    requires r' == ReplayOnTerrain(r, x, drops)
    requires columnMoved <==> |drops| > 0
    requires maxFall < 1 ==> !columnMoved
    ensures ReplayedUpTo(t, maxFall, xs, r', traces + [drops], moved || columnMoved)
  {
    ReplaySpanAppend(t, xs, traces, drops);
    AppendTraceFacts(traces, drops);
  }

  /** Performing one more trace extends the span replay by a ReplayOnTerrain of the next column. */
  lemma ReplaySpanAppend(t: Terrain, xs: int, traces: seq<seq<Drop>>, drops: seq<Drop>)
    requires t.Valid() && t.tiles.Some? && 0 <= xs && xs + |traces| < t.width
    requires TracesInTiles(traces) && DropsInTiles(drops)
    ensures TracesInTiles(traces + [drops])
    ensures ReplaySpan(t, xs, traces + [drops], |traces| + 1) ==
            ReplayOnTerrain(ReplaySpan(t, xs, traces, |traces|), xs + |traces|, drops)
  {
    AppendTraceFacts(traces, drops);
    AppendSplits(traces, drops);
    ReplaySpanPrefix(t, xs, traces, traces + [drops], |traces|);
  }

  /** traces + [drops] splits back into traces and drops. */
  lemma AppendSplits<T>(traces: seq<T>, drops: T)
    ensures forall k :: 0 <= k < |traces| ==> (traces + [drops])[k] == traces[k]
    ensures (traces + [drops])[|traces|] == drops
  {
  }

  /** Appending a trace keeps every drop inside the tiles, and a trace is non-empty iff an earlier one or the new one is. */
  lemma AppendTraceFacts(traces: seq<seq<Drop>>, drops: seq<Drop>)
    requires TracesInTiles(traces)
    requires DropsInTiles(drops)
    ensures TracesInTiles(traces + [drops])
    ensures (exists k :: 0 <= k < |traces + [drops]| && |(traces + [drops])[k]| > 0) <==>
            (exists k :: 0 <= k < |traces| && |traces[k]| > 0) || |drops| > 0
  {
    var traces': seq<seq<Drop>> := traces + [drops];
    forall k | 0 <= k < |traces'|
      ensures DropsInTiles(traces'[k])
    {
      if k < |traces| {
        assert traces'[k] == traces[k];
      }
    }
    if exists k :: 0 <= k < |traces| && |traces[k]| > 0 {
      var k :| 0 <= k < |traces| && |traces[k]| > 0;
      assert traces'[k] == traces[k];
    }
    if |drops| > 0 {
      assert |traces'[|traces|]| > 0;
    }
  }

  /** Settling column x (as SlideColumn does) extends the slide loop's state by that column. */
  lemma SlideStepKeeps(t: Terrain, maxFall: int, xs: int, ys: int, x: int, r: Terrain, traces: seq<seq<Drop>>, moved: bool,
                       r': Terrain, drops: seq<Drop>, columnMoved: bool, next: int)
    requires t.Valid() && t.tiles.Some? && 0 <= xs <= x < t.width && 0 <= ys < t.height && next == x + 1
    requires SlidUpTo(t, maxFall, xs, ys, x, r, traces, moved)
    requires r'.Valid() && r'.tiles.Some?
    requires r'.width == r.width && r'.height == r.height && r'.lastDeform == r.lastDeform
    requires SettledBy(r.cells[x], drops, r'.cells[x], ys, maxFall)
    requires forall x' :: 0 <= x' < r.width && x' != x ==> r'.cells[x'] == r.cells[x']
    requires forall x', y :: 0 <= x' < TiledWidth && 0 <= y < TileRows && x' != x ==>
               PixelAt(r'.tiles.value, x', y) == PixelAt(r.tiles.value, x', y)
    requires forall j :: ClearFrom(r.cells[x], j) ==> ClearFrom(r'.cells[x], j)
    requires maxFall >= 1 ==>
      (columnMoved <==> exists y :: Max(ys, 1) <= y < r.height && r.cells[x][y] && !r.cells[x][y - 1])
    requires !columnMoved ==> r' == r
    requires r.Mirrored() ==> r'.Mirrored()
    ensures SlidUpTo(t, maxFall, xs, ys, next, r', traces + [drops], moved || columnMoved)
  {
    var traces' := traces + [drops];
    assert r.cells[x] == t.cells[x];
    forall x' | xs <= x' < x + 1
      ensures SettledBy(t.cells[x'], traces'[x' - xs], r'.cells[x'], ys, maxFall)
    {
      if x' < x {
        assert traces'[x' - xs] == traces[x' - xs];
      }
    }
  }

  /** One pass of the slide loop: settles span column x and records its trace. */
  method SlideStep(t: Terrain, maxFall: int, xs: int, ys: int, x: int, r: Terrain, traces: seq<seq<Drop>>, moved: bool)
    returns (r': Terrain, traces': seq<seq<Drop>>, moved': bool, next: int)
    requires t.Valid() && t.tiles.Some? && 0 <= xs <= x < t.width && 0 <= ys < t.height
    requires ClearFrom(t.cells[x], TileRows)
    requires SlidUpTo(t, maxFall, xs, ys, x, r, traces, moved)
    requires ReplayedUpTo(t, maxFall, xs, r, traces, moved)
    ensures next == x + 1
    ensures SlidUpTo(t, maxFall, xs, ys, next, r', traces', moved')
    ensures ReplayedUpTo(t, maxFall, xs, r', traces', moved')
  {
    assert r.cells[x] == t.cells[x];
    var drops, columnMoved;
    r', drops, columnMoved := SlideColumn(r, x, ys, maxFall);
    next := x + 1;
    SlideStepKeeps(t, maxFall, xs, ys, x, r, traces, moved, r', drops, columnMoved, next);
    ReplayStepKeeps(t, maxFall, xs, x, r, traces, moved, r', drops, columnMoved);
    traces', moved' := traces + [drops], moved || columnMoved;
  }

  /** The slide loop's final state gives the slide's contract: the span settled, and solid counts and the mirror kept. */
  lemma SlidFinally(t: Terrain, maxFall: int, xs: int, xe: int, ys: int, r: Terrain, traces: seq<seq<Drop>>, moved: bool)
    requires t.Valid() && t.tiles.Some? && 0 <= xs
    requires xs < xe ==> xe <= t.width
    requires SlidUpTo(t, maxFall, xs, ys, Max(xs, xe), r, traces, moved)
    ensures r.Valid() && r.tiles.Some?
    ensures r.width == t.width && r.height == t.height && r.lastDeform == t.lastDeform
    ensures |traces| == Max(0, xe - xs)
    ensures forall x :: xs <= x < xe ==> SettledBy(t.cells[x], traces[x - xs], r.cells[x], ys, maxFall)
    ensures forall x :: 0 <= x < t.width && !(xs <= x < xe) ==> r.cells[x] == t.cells[x]
    ensures forall x, y :: 0 <= x < TiledWidth && 0 <= y < TileRows && !(xs <= x < xe) ==>
              PixelAt(r.tiles.value, x, y) == PixelAt(t.tiles.value, x, y)
    ensures forall x :: 0 <= x < t.width ==> multiset(r.cells[x]) == multiset(t.cells[x])
    ensures GridSolid(r.cells) == GridSolid(t.cells)
    ensures maxFall >= 1 ==>
      (moved <==> exists x, y :: xs <= x < xe && Max(ys, 1) <= y < t.height && t.cells[x][y] && !t.cells[x][y - 1])
    ensures !moved ==> r == t
    ensures t.Mirrored() ==> r.Mirrored()
    ensures t.SolidBelowTileTop() ==> r.SolidBelowTileTop()
  {
    forall x' | 0 <= x' < t.width
      ensures multiset(r.cells[x']) == multiset(t.cells[x'])
    {
      if xs <= x' < xe {
        assert SettledBy(t.cells[x'], traces[x' - xs], r.cells[x'], ys, maxFall);
      }
    }
    forall x' | 0 <= x' < t.width
      ensures CountSolid(r.cells[x']) == CountSolid(t.cells[x'])
    {
      CountSolidIsMultiplicity(r.cells[x']);
      CountSolidIsMultiplicity(t.cells[x']);
    }
    GridSolidByColumns(r.cells, t.cells);
    if t.SolidBelowTileTop() {
      forall x', y | 0 <= x' < r.width && TileRows <= y < r.height
        ensures !r.cells[x'][y]
      {
        assert ClearFrom(t.cells[x'], TileRows);
      }
    }
  }

  /**
   * slide: settles every column of the last crater's span from its start
   * row. Returns the drops made in each span column, left to right, and
   * whether any dirt moved.
   */
  method Slide(t: Terrain, maxFall: int) returns (r: Terrain, traces: seq<seq<Drop>>, moved: bool)
    requires t.Valid() && t.tiles.Some? && t.lastDeform.Some?
    requires SettleSpan(t).0 < SettleSpan(t).1 ==> SettleSpan(t).2 < t.height
    requires forall x :: SettleSpan(t).0 <= x < SettleSpan(t).1 ==> ClearFrom(t.cells[x], TileRows)
    ensures r.Valid() && r.tiles.Some?
    ensures r.width == t.width && r.height == t.height && r.lastDeform == t.lastDeform
    ensures |traces| == Max(0, SettleSpan(t).1 - SettleSpan(t).0)
    ensures forall x :: SettleSpan(t).0 <= x < SettleSpan(t).1 ==>
              SettledBy(t.cells[x], traces[x - SettleSpan(t).0], r.cells[x], SettleSpan(t).2, maxFall)
    ensures TracesInTiles(traces)
    ensures r == ReplaySpan(t, SettleSpan(t).0, traces, |traces|)
    ensures moved <==> exists k :: 0 <= k < |traces| && |traces[k]| > 0
    ensures maxFall < 1 ==> !moved
    ensures forall x :: 0 <= x < t.width && !(SettleSpan(t).0 <= x < SettleSpan(t).1) ==> r.cells[x] == t.cells[x]
    ensures forall x, y :: 0 <= x < TiledWidth && 0 <= y < TileRows && !(SettleSpan(t).0 <= x < SettleSpan(t).1) ==>
              PixelAt(r.tiles.value, x, y) == PixelAt(t.tiles.value, x, y)
    ensures forall x :: 0 <= x < t.width ==> multiset(r.cells[x]) == multiset(t.cells[x])
    ensures GridSolid(r.cells) == GridSolid(t.cells)
    ensures maxFall >= 1 ==>
      (moved <==> exists x, y :: SettleSpan(t).0 <= x < SettleSpan(t).1 && Max(SettleSpan(t).2, 1) <= y < t.height &&
                    t.cells[x][y] && !t.cells[x][y - 1])
    ensures !moved ==> r == t
    ensures t.Mirrored() ==> r.Mirrored()
    ensures t.SolidBelowTileTop() ==> r.SolidBelowTileTop()
  {
    var xs, xe, ys := SettleSpan(t).0, SettleSpan(t).1, SettleSpan(t).2;
    r, traces, moved := t, [], false;
    var x := xs;
    while x < xe
      invariant xs <= x && (x <= xe || x == xs)
      invariant SlidUpTo(t, maxFall, xs, ys, x, r, traces, moved)
      invariant ReplayedUpTo(t, maxFall, xs, r, traces, moved)
    {
      r, traces, moved, x := SlideStep(t, maxFall, xs, ys, x, r, traces, moved);
    }
    SlidFinally(t, maxFall, xs, xe, ys, r, traces, moved);
  }
}

=== FILE: support.dfy ===
/**
 * The support test a resting sprite (the tank) uses: for each screen column
 * under the sprite, the grid cell just below the sprite's lowest opaque
 * pixels either holds it up or not. Long unsupported runs at either edge
 * make the sprite slide sideways off the ledge.
 */
module Support {
  import opened Tiles
  import opened TerrainState

  /** The first transparent row of sprite column `col` at or above row r, or the height if there is none. */
  function GapFrom(s: Sprite, col: int, r: nat): (g: nat)
    requires s.Valid() && 0 <= col < s.width && r <= s.height
    ensures r <= g <= s.height
    ensures forall k :: r <= k < g ==> s.pixels[col][k] != Transparent
    ensures g < s.height ==> s.pixels[col][g] == Transparent
    decreases s.height - r
  {
    if r == s.height then r
    else if s.pixels[col][r] == Transparent then r
    else GapFrom(s, col, r + 1)
  }

  /** The sprite's bottom gap in column col: the number of opaque rows before its first transparent one. */
  function BottomGap(s: Sprite, col: int): (g: nat)
    requires s.Valid() && 0 <= col < s.width
    ensures g <= s.height
    ensures forall k :: 0 <= k < g ==> s.pixels[col][k] != Transparent
    ensures g < s.height ==> s.pixels[col][g] == Transparent
  {
    GapFrom(s, col, 0)
  }

  /** The first transparent row is the only row with the bottom gap's two properties. */
  lemma BottomGapUnique(s: Sprite, col: int, g: int)
    requires s.Valid() && 0 <= col < s.width && 0 <= g <= s.height
    requires forall k :: 0 <= k < g ==> s.pixels[col][k] != Transparent
    requires g < s.height ==> s.pixels[col][g] == Transparent
    ensures g == BottomGap(s, col)
  {
  }

  /**
   * The bottom-gap scan: rows are read upward from 0 until a transparent
   * one. When every row is opaque the scan also reads the row just past
   * the top, whose value cannot change the answer.
   */
  method ScanGap(s: Sprite, col: int) returns (g: int)
    requires s.Valid() && 0 <= col < s.width
    ensures g == BottomGap(s, col)
  {
    g := -1;
    while g < s.height
      invariant -1 <= g <= s.height
      invariant forall k :: 0 <= k <= g && k < s.height ==> s.pixels[col][k] != Transparent
      decreases s.height - g
    {
      g := g + 1;
      if g < s.height && s.pixels[col][g] == Transparent {
        break;
      }
    }
    BottomGapUnique(s, col, g);
  }

  /** One past the last grid column under a sprite of width `s.width` at column x. */
  function ClipEnd(t: Terrain, s: Sprite, x: int): (xe: int)
    ensures xe == x + s.width || (xe == t.width && x + s.width >= t.width)
  {
    if x + s.width >= t.width then t.width else x + s.width
  }

  /** The placement the support test is defined for: on the grid and above the bottom row. */
  predicate Placed(t: Terrain, s: Sprite, x: int, y: int)
  {
    && t.Valid() && s.Valid()
    && 0 <= x < t.width && 1 <= y < t.height
  }

  /** The grid row the support test reads in column i: the one just below the sprite's bottom gap there. */
  function SupportRow(t: Terrain, s: Sprite, x: int, y: int, i: int): (row: int)
    requires Placed(t, s, x, y) && x <= i < ClipEnd(t, s, x)
    ensures row >= 0
  {
    y + BottomGap(s, i - x) - 1
  }

  /** The support test's read in column i lies in the grid (a gap reaching the top row would read above it). */
  predicate ReadsInGrid(t: Terrain, s: Sprite, x: int, y: int, i: int)
    requires Placed(t, s, x, y) && x <= i < ClipEnd(t, s, x)
  {
    SupportRow(t, s, x, y, i) < t.height
  }

  /** Grid column i is held up when the cell just below the sprite's bottom gap there is solid. */
  predicate Supported(t: Terrain, s: Sprite, x: int, y: int, i: int)
    requires Placed(t, s, x, y) && x <= i < ClipEnd(t, s, x)
    requires ReadsInGrid(t, s, x, y, i)
  {
    t.cells[i][SupportRow(t, s, x, y, i)]
  }

  /**
   * The left scan, run from column i, reads only cells of the grid: it
   * reads each column rightward up to and including the first supported one.
   */
  predicate LeftScanInGrid(t: Terrain, s: Sprite, x: int, y: int, i: int)
    requires Placed(t, s, x, y) && x <= i <= ClipEnd(t, s, x)
    decreases ClipEnd(t, s, x) - i
  {
    || i == ClipEnd(t, s, x)
    || (ReadsInGrid(t, s, x, y, i) && (Supported(t, s, x, y, i) || LeftScanInGrid(t, s, x, y, i + 1)))
  }

  /**
   * The right scan, run leftward from column j - 1, reads only cells of the
   * grid: it reads each column down to and including the first supported one.
   */
  predicate RightScanInGrid(t: Terrain, s: Sprite, x: int, y: int, j: int)
    requires Placed(t, s, x, y) && x <= j <= ClipEnd(t, s, x)
    decreases j - x
  {
    || j == x
    || (ReadsInGrid(t, s, x, y, j - 1) && (Supported(t, s, x, y, j - 1) || RightScanInGrid(t, s, x, y, j - 1)))
  }

  /** The number of consecutive unsupported columns from column i rightward. */
  function LeftRun(t: Terrain, s: Sprite, x: int, y: int, i: int): (n: nat)
    requires Placed(t, s, x, y) && x <= i <= ClipEnd(t, s, x)
    requires LeftScanInGrid(t, s, x, y, i)
    ensures i + n <= ClipEnd(t, s, x)
    ensures forall k :: i <= k < i + n ==> ReadsInGrid(t, s, x, y, k) && !Supported(t, s, x, y, k)
    ensures i + n < ClipEnd(t, s, x) ==> ReadsInGrid(t, s, x, y, i + n) && Supported(t, s, x, y, i + n)
    decreases ClipEnd(t, s, x) - i
  {
    if i == ClipEnd(t, s, x) || Supported(t, s, x, y, i) then 0
    else 1 + LeftRun(t, s, x, y, i + 1)
  }

  /** The number of consecutive unsupported columns leftward from column j - 1. */
  function RightRun(t: Terrain, s: Sprite, x: int, y: int, j: int): (n: nat)
    requires Placed(t, s, x, y) && x <= j <= ClipEnd(t, s, x)
    requires RightScanInGrid(t, s, x, y, j)
    ensures x <= j - n
    ensures forall k :: j - n <= k < j ==> ReadsInGrid(t, s, x, y, k) && !Supported(t, s, x, y, k)
    ensures x < j - n ==> ReadsInGrid(t, s, x, y, j - n - 1) && Supported(t, s, x, y, j - n - 1)
    decreases j - x
  {
    if j == x || Supported(t, s, x, y, j - 1) then 0
    else 1 + RightRun(t, s, x, y, j - 1)
  }

  /**
   * The sideways nudge for unsupported runs of `left` and `right` columns
   * under a sprite `width` wide. A run spanning the whole width means the
   * sprite falls instead (no nudge). Otherwise a run longer than half the
   * width pushes the sprite off that edge: leftward so its right edge meets
   * the first supported column, or rightward so its left edge starts just
   * past the last supported column; the left run wins only when strictly
   * longer.
   */
  function Nudge(left: int, right: int, width: int): (r: int)
    requires 0 <= left && 0 <= right
    ensures left >= width || right >= width ==> r == 0
    ensures r < 0 <==> left < width && right < width && left > right && left > width / 2
    ensures r > 0 <==> left < width && right < width && right >= left && right > width / 2
    ensures r < 0 ==> r + width == left
    ensures r > 0 ==> width - r == right
    ensures r != 0 ==> -width < r < width
  {
    if left >= width || right >= width then 0
    else if left > right then (if left > width / 2 then -(width - left) else 0)
    else if right > width / 2 then width - right
    else 0
  }

  /**
   * would_fall: the sideways shift a sprite resting at (x, y) should make.
   * Zero at the bottom row; otherwise the nudge for the unsupported runs
   * counted from each edge of the sprite's on-screen columns.
   */
  method WouldFall(t: Terrain, s: Sprite, x: int, y: int) returns (shift: int)
    requires t.Valid() && s.Valid()
    requires 0 <= x < t.width && 0 <= y < t.height
    requires 1 <= y ==> LeftScanInGrid(t, s, x, y, x) && RightScanInGrid(t, s, x, y, ClipEnd(t, s, x))
    ensures y == 0 ==> shift == 0
    ensures y >= 1 ==> shift == Nudge(LeftRun(t, s, x, y, x), RightRun(t, s, x, y, ClipEnd(t, s, x)), s.width)
    ensures y >= 1 && x < ClipEnd(t, s, x) &&
            ReadsInGrid(t, s, x, y, x) && Supported(t, s, x, y, x) &&
            ReadsInGrid(t, s, x, y, ClipEnd(t, s, x) - 1) && Supported(t, s, x, y, ClipEnd(t, s, x) - 1) ==>
              shift == 0
    ensures (y >= 1 && ClipEnd(t, s, x) == x + s.width && 0 < s.width &&
             forall i :: x <= i < x + s.width ==> ReadsInGrid(t, s, x, y, i) && !Supported(t, s, x, y, i)) ==> shift == 0
  {
    if y <= 0 {
      return 0;
    }
    var left := CountLeftRun(t, s, x, y);
    var right := CountRightRun(t, s, x, y);
    if ClipEnd(t, s, x) == x + s.width && 0 < s.width &&
       forall k :: x <= k < x + s.width ==> ReadsInGrid(t, s, x, y, k) && !Supported(t, s, x, y, k)
    {
      LeftRunUnique(t, s, x, y, s.width);
    }
    shift := Nudge(left, right, s.width);
  }

  /** would_fall's first loop: columns are read rightward from x until a supported one. */
  method CountLeftRun(t: Terrain, s: Sprite, x: int, y: int) returns (left: int)
    requires Placed(t, s, x, y) && LeftScanInGrid(t, s, x, y, x)
    ensures left == LeftRun(t, s, x, y, x)
  {
    var xe := ClipEnd(t, s, x);
    left := 0;
    var i := x;
    while i < xe
      invariant x <= i <= xe && left == i - x
      invariant LeftScanInGrid(t, s, x, y, i)
      invariant forall k :: x <= k < i ==> ReadsInGrid(t, s, x, y, k) && !Supported(t, s, x, y, k)
    {
      var gap := ScanGap(s, i - x);
      if t.cells[i][y + gap - 1] {
        break;
      }
      left := left + 1;
      i := i + 1;
    }
    LeftRunUnique(t, s, x, y, left);
  }

  /** would_fall's second loop: columns are read leftward from the clipped right edge until a supported one. */
  method CountRightRun(t: Terrain, s: Sprite, x: int, y: int) returns (right: int)
    requires Placed(t, s, x, y) && RightScanInGrid(t, s, x, y, ClipEnd(t, s, x))
    ensures right == RightRun(t, s, x, y, ClipEnd(t, s, x))
  {
    var xe := ClipEnd(t, s, x);
    right := 0;
    var j := xe - 1;
    while j >= x
      invariant x - 1 <= j < xe && right == xe - 1 - j
      invariant RightScanInGrid(t, s, x, y, j + 1)
      invariant forall k :: j < k < xe ==> ReadsInGrid(t, s, x, y, k) && !Supported(t, s, x, y, k)
    {
      var gap := ScanGap(s, j - x);
      if t.cells[j][y + gap - 1] {
        break;
      }
      right := right + 1;
      j := j - 1;
    }
    RightRunUnique(t, s, x, y, right);
  }

  /** A count of unsupported columns from x that ends at the clip or at a supported column is the left run. */
  lemma LeftRunUnique(t: Terrain, s: Sprite, x: int, y: int, n: int)
    requires Placed(t, s, x, y) && LeftScanInGrid(t, s, x, y, x)
    requires 0 <= n && x + n <= ClipEnd(t, s, x)
    requires forall k :: x <= k < x + n ==> ReadsInGrid(t, s, x, y, k) && !Supported(t, s, x, y, k)
    requires x + n < ClipEnd(t, s, x) ==> ReadsInGrid(t, s, x, y, x + n) && Supported(t, s, x, y, x + n)
    ensures n == LeftRun(t, s, x, y, x)
  {
    var l := LeftRun(t, s, x, y, x);
    if x + l < ClipEnd(t, s, x) {
      assert Supported(t, s, x, y, x + l);
    }
    if x + n < ClipEnd(t, s, x) {
      assert Supported(t, s, x, y, x + n);
    }
  }

  /** A count of unsupported columns ending at the clip that stops at x or at a supported column is the right run. */
  lemma RightRunUnique(t: Terrain, s: Sprite, x: int, y: int, n: int)
    requires Placed(t, s, x, y) && RightScanInGrid(t, s, x, y, ClipEnd(t, s, x))
    requires 0 <= n && x <= ClipEnd(t, s, x) - n
    requires forall k :: ClipEnd(t, s, x) - n <= k < ClipEnd(t, s, x) ==> ReadsInGrid(t, s, x, y, k) && !Supported(t, s, x, y, k)
    requires x < ClipEnd(t, s, x) - n ==> ReadsInGrid(t, s, x, y, ClipEnd(t, s, x) - n - 1) && Supported(t, s, x, y, ClipEnd(t, s, x) - n - 1)
    ensures n == RightRun(t, s, x, y, ClipEnd(t, s, x))
  {
    var xe := ClipEnd(t, s, x);
    var r := RightRun(t, s, x, y, xe);
    if x < xe - r {
      assert Supported(t, s, x, y, xe - r - 1);
    }
    if x < xe - n {
      assert Supported(t, s, x, y, xe - n - 1);
    }
  }
}

=== FILE: terrain_state.dfy ===
/**
 * The terrain object: the occupancy grid, its tile mirror and the record of
 * the last crater, with the two cell-level mutations (remove a point, swap
 * two points) and the tile (re)builders.
 */
module TerrainState {
  import opened Results
  import opened Cells
  import opened Tiles

  /** A grid position (entity anchors, crater centres, cells). */
  datatype Point = Point(x: int, y: int)

  /** The last crater carved: its centre and its radius as recorded (one more than requested). */
  datatype Crater = Crater(centre: Point, radius: int)

  /**
   * Terrain state. `width` and `height` are fixed at construction; `tiles`
   * is absent when the surfaces could not be created; `lastDeform` is absent
   * until the first crater.
   */
  datatype Terrain = Terrain(
    width: int,
    height: int,
    cells: seq<Column>,
    tiles: Option<seq<Tile>>,
    lastDeform: Option<Crater>)
  {
    /** Grid of the declared size; at most 800 columns (the tiles' span) and at least 512 rows (the tiles' height). */
    predicate Valid()
    {
      && 1 <= width <= TiledWidth
      && height >= TileRows
      && |cells| == width
      && (forall x :: 0 <= x < width ==> |cells[x]| == height)
      && (tiles.Some? ==> Shaped(tiles.value))
    }

    /** When the tiles exist they show exactly the solid cells of rows [0,512). */
    predicate Mirrored()
      requires Valid()
    {
      tiles.Some? ==> Mirrors(tiles.value, cells)
    }

    predicate InGrid(x: int, y: int)
    {
      0 <= x < width && 0 <= y < height
    }

    /** No solid cell lies above the tiles' top row. */
    predicate SolidBelowTileTop()
      requires Valid()
    {
      forall x, y :: 0 <= x < width && TileRows <= y < height ==> !cells[x][y]
    }
  }

  /** Grids of one shape are equal when every cell is. */
  lemma {:induction false} CellsExtensional(a: seq<Column>, b: seq<Column>, height: int)
    requires |a| == |b|
    requires forall x :: 0 <= x < |a| ==> |a[x]| == height && |b[x]| == height
    requires forall x, y :: 0 <= x < |a| && 0 <= y < height ==> a[x][y] == b[x][y]
    ensures a == b
  {
    forall x | 0 <= x < |a|
      ensures a[x] == b[x]
    {
    }
  }

  /**
   * Clears cell (x, y) and makes its tile pixel transparent, in tile 2 at
   * x-768 when x >= 768, in tile 1 at x-512 when x >= 512, else in tile 0.
   */
  function RemovePoint(t: Terrain, x: int, y: int): (r: Terrain)
    requires t.Valid() && t.tiles.Some?
    requires t.InGrid(x, y) && y < TileRows
    ensures r.Valid() && r.tiles.Some?
    ensures r.width == t.width && r.height == t.height && r.lastDeform == t.lastDeform
    ensures !r.cells[x][y]
    ensures PixelAt(r.tiles.value, x, y) == Transparent
    ensures forall x', y' :: t.InGrid(x', y') && (x' != x || y' != y) ==> r.cells[x'][y'] == t.cells[x'][y']
    ensures forall x', y' :: 0 <= x' < TiledWidth && 0 <= y' < TileRows && (x' != x || y' != y) ==>
              PixelAt(r.tiles.value, x', y') == PixelAt(t.tiles.value, x', y')
    ensures t.Mirrored() ==> r.Mirrored()
  {
    t.(cells := t.cells[x := t.cells[x][y := false]],
       tiles := Some(SetPixel(t.tiles.value, x, y, Transparent)))
  }

  /** Exchanges both the occupancy and the tile pixel of cells (x1, y1) and (x2, y2). */
  function SwapPoints(t: Terrain, x1: int, y1: int, x2: int, y2: int): (r: Terrain)
    requires t.Valid() && t.tiles.Some?
    requires t.InGrid(x1, y1) && y1 < TileRows
    requires t.InGrid(x2, y2) && y2 < TileRows
    ensures r.Valid() && r.tiles.Some?
    ensures r.width == t.width && r.height == t.height && r.lastDeform == t.lastDeform
    ensures r.cells[x1][y1] == t.cells[x2][y2] && r.cells[x2][y2] == t.cells[x1][y1]
    ensures PixelAt(r.tiles.value, x1, y1) == PixelAt(t.tiles.value, x2, y2)
    ensures PixelAt(r.tiles.value, x2, y2) == PixelAt(t.tiles.value, x1, y1)
    ensures forall x, y :: t.InGrid(x, y) && (x != x1 || y != y1) && (x != x2 || y != y2) ==>
              r.cells[x][y] == t.cells[x][y]
    ensures forall x, y :: 0 <= x < TiledWidth && 0 <= y < TileRows && (x != x1 || y != y1) && (x != x2 || y != y2) ==>
              PixelAt(r.tiles.value, x, y) == PixelAt(t.tiles.value, x, y)
    ensures t.Mirrored() ==> r.Mirrored()
  {
    var held := t.cells[x1][y1];
    var cells1 := t.cells[x1 := t.cells[x1][y1 := t.cells[x2][y2]]];
    var cells2 := cells1[x2 := cells1[x2][y2 := held]];
    var ts := t.tiles.value;
    var pixel := PixelAt(ts, x1, y1);
    var ts1 := SetPixel(ts, x1, y1, PixelAt(ts, x2, y2));
    var ts2 := SetPixel(ts1, x2, y2, pixel);
    t.(cells := cells2, tiles := Some(ts2))
  }

  /** Swapping the same two points twice restores the terrain exactly. */
  lemma SwapPointsInvolution(t: Terrain, x1: int, y1: int, x2: int, y2: int)
    requires t.Valid() && t.tiles.Some?
    requires t.InGrid(x1, y1) && y1 < TileRows
    requires t.InGrid(x2, y2) && y2 < TileRows
    ensures SwapPoints(SwapPoints(t, x1, y1, x2, y2), x1, y1, x2, y2) == t
  {
    var u := SwapPoints(SwapPoints(t, x1, y1, x2, y2), x1, y1, x2, y2);
    CellsExtensional(u.cells, t.cells, t.height);
    TilesExtensional(u.tiles.value, t.tiles.value);
  }

  /**
   * create_textures: frees any old surfaces and builds three new tiles from
   * the grid. `surfacesCreated` is the outcome of creating the three
   * surfaces; when any fails, the terrain is left without tiles.
   */
  method CreateTextures(t: Terrain, surfacesCreated: bool) returns (r: Terrain)
    requires t.Valid()
    ensures r.Valid() && r.Mirrored()
    ensures r.width == t.width && r.height == t.height && r.cells == t.cells && r.lastDeform == t.lastDeform
    ensures r.tiles.Some? <==> surfacesCreated
    ensures r.tiles.Some? ==> forall x, y :: 0 <= x < r.width && 0 <= y < TileRows ==>
              PixelAt(r.tiles.value, x, y) == Painted(r.cells[x], y)
  {
    if !surfacesCreated {
      return t.(tiles := None);
    }
    var ts := CreateTiles(t.cells);
    r := t.(tiles := Some(ts));
  }

  /**
   * generate_textures: when all three surfaces exist it only re-uploads
   * them (not modelled), so the terrain is unchanged; otherwise it first
   * recreates them from the grid.
   */
  method GenerateTextures(t: Terrain, surfacesCreated: bool) returns (r: Terrain)
    requires t.Valid()
    ensures r.Valid()
    ensures t.tiles.Some? ==> r == t
    ensures r.width == t.width && r.height == t.height && r.cells == t.cells && r.lastDeform == t.lastDeform
    ensures t.tiles.None? ==> (r.tiles.Some? <==> surfacesCreated)
    ensures t.tiles.None? && r.tiles.Some? ==> forall x, y :: 0 <= x < r.width && 0 <= y < TileRows ==>
              PixelAt(r.tiles.value, x, y) == Painted(r.cells[x], y)
    ensures t.Mirrored() ==> r.Mirrored()
  {
    if t.tiles.None? {
      r := CreateTextures(t, surfacesCreated);
    } else {
      r := t;
    }
  }
}

=== FILE: tiles.dfy ===
/**
 * The image tiles that mirror the occupancy grid for display, and sprite
 * masks. The terrain image is split into three tiles because one buffer
 * would exceed the maximum texture size: columns [0,512) go to tile 0,
 * [512,768) to tile 1 and [768,800) to tile 2, each 512 rows tall.
 */
module Tiles {
  import opened Cells

  /** A pixel colour. `Transparent` is the packed (0,0,0,0) value the terrain compares against. */
  datatype Colour = Transparent | Opaque(red: int, green: int, blue: int)

  /** Rows held by every tile. */
  const TileRows: nat := 512

  /** Columns covered by the three tiles together. */
  const TiledWidth: nat := 800

  /** First world column of tile k. */
  function TileLeft(k: nat): nat
    requires k < 3
  {
    if k == 0 then 0 else if k == 1 then 512 else 768
  }

  /** Pixel width of tile k. */
  function TileWidth(k: nat): nat
    requires k < 3
  {
    if k == 0 then 512 else if k == 1 then 256 else 32
  }

  /** The tile and tile column that hold world column x. */
  function TileOf(x: int): (r: (nat, nat))
    requires 0 <= x < TiledWidth
    ensures r.0 < 3 && r.1 < TileWidth(r.0)
    ensures TileLeft(r.0) + r.1 == x
  {
    if x >= 768 then (2, x - 768) else if x >= 512 then (1, x - 512) else (0, x)
  }

  /** Every tile column is the image of exactly one world column: the partition has no gaps or overlaps. */
  lemma TileOfLeft(k: nat, tx: nat)
    requires k < 3 && tx < TileWidth(k)
    ensures TileLeft(k) + tx < TiledWidth
    ensures TileOf(TileLeft(k) + tx) == (k, tx)
  {
  }

  /** A tile, column-major: `tile[tx][y]`. */
  type Tile = seq<seq<Colour>>

  /** Three tiles of the fixed sizes. */
  predicate Shaped(ts: seq<Tile>)
  {
    && |ts| == 3
    && (forall k :: 0 <= k < 3 ==> |ts[k]| == TileWidth(k))
    && (forall k, tx :: 0 <= k < 3 && 0 <= tx < |ts[k]| ==> |ts[k][tx]| == TileRows)
  }

  /** The pixel that shows world cell (x, y). */
  function PixelAt(ts: seq<Tile>, x: int, y: int): Colour
    requires Shaped(ts)
    requires 0 <= x < TiledWidth && 0 <= y < TileRows
  {
    var (k, tx) := TileOf(x);
    ts[k][tx][y]
  }

  /** The tiles with the pixel of world cell (x, y) set to `colour`. */
  function SetPixel(ts: seq<Tile>, x: int, y: int, colour: Colour): (r: seq<Tile>)
    requires Shaped(ts)
    requires 0 <= x < TiledWidth && 0 <= y < TileRows
    ensures Shaped(r)
    ensures PixelAt(r, x, y) == colour
    ensures forall x', y' :: 0 <= x' < TiledWidth && 0 <= y' < TileRows && (x' != x || y' != y) ==>
              PixelAt(r, x', y') == PixelAt(ts, x', y')
  {
    var (k, tx) := TileOf(x);
    ts[k := ts[k][tx := ts[k][tx][y := colour]]]
  }

  /** Tile sets are equal when every world pixel is. */
  lemma {:induction false} TilesExtensional(a: seq<Tile>, b: seq<Tile>)
    requires Shaped(a) && Shaped(b)
    requires forall x, y :: 0 <= x < TiledWidth && 0 <= y < TileRows ==> PixelAt(a, x, y) == PixelAt(b, x, y)
    ensures a == b
  {
    forall k, tx | 0 <= k < 3 && 0 <= tx < TileWidth(k)
      ensures a[k][tx] == b[k][tx]
    {
      TileOfLeft(k, tx);
      forall y | 0 <= y < TileRows
        ensures a[k][tx][y] == b[k][tx][y]
      {
        assert PixelAt(a, TileLeft(k) + tx, y) == PixelAt(b, TileLeft(k) + tx, y);
      }
    }
    forall k | 0 <= k < 3
      ensures a[k] == b[k]
    {
    }
  }

  /** Freshly created surfaces: every pixel transparent. */
  function Blank(): (r: seq<Tile>)
    ensures Shaped(r)
    ensures forall x, y :: 0 <= x < TiledWidth && 0 <= y < TileRows ==> PixelAt(r, x, y) == Transparent
  {
    seq(3, k requires 0 <= k < 3 => seq(TileWidth(k), _ => seq(TileRows, _ => Transparent)))
  }

  /** The tiles show exactly the solid cells: a pixel is opaque iff its cell is solid. */
  predicate Mirrors(ts: seq<Tile>, cells: seq<Column>)
    requires Shaped(ts)
    requires |cells| <= TiledWidth
    requires forall x :: 0 <= x < |cells| ==> |cells[x]| >= TileRows
  {
    forall x, y :: 0 <= x < |cells| && 0 <= y < TileRows ==>
      (PixelAt(ts, x, y) == Transparent <==> !cells[x][y])
  }

  /** The earth colour at a given depth below the column's top: it goes brown as it gets deeper. */
  function EarthColour(depth: nat): Colour
  {
    Opaque(depth, 192 - depth, 6)
  }

  /** How deep a solid cell is shaded: the solid cells above it in rows (y, 511], capped at 128. */
  function Depth(c: Column, y: nat): nat
    requires y < TileRows <= |c|
  {
    var above := CountSolid(c[y + 1..TileRows]);
    if above < 128 then above else 128
  }

  /** The pixel the tile builder writes for cell (x, y). */
  function Painted(c: Column, y: nat): Colour
    requires y < TileRows <= |c|
  {
    if c[y] then EarthColour(Depth(c, y)) else Transparent
  }

  /**
   * Builds the three tiles from the grid, column by column from row 511
   * down, darkening the earth colour by one step per solid cell passed.
   */
  method CreateTiles(cells: seq<Column>) returns (ts: seq<Tile>)
    requires |cells| <= TiledWidth
    requires forall x :: 0 <= x < |cells| ==> |cells[x]| >= TileRows
    ensures Shaped(ts)
    ensures Mirrors(ts, cells)
    ensures forall x, y :: 0 <= x < |cells| && 0 <= y < TileRows ==> PixelAt(ts, x, y) == Painted(cells[x], y)
    ensures forall x, y :: |cells| <= x < TiledWidth && 0 <= y < TileRows ==> PixelAt(ts, x, y) == Transparent
  {
    ts := Blank();
    var x := 0;
    while x < |cells|
      invariant 0 <= x <= |cells|
      invariant Shaped(ts)
      invariant forall x', y' :: 0 <= x' < TiledWidth && 0 <= y' < TileRows ==>
                  PixelAt(ts, x', y') == if x' < x then Painted(cells[x'], y') else Transparent
    {
      var colour: nat := 0;
      var y: int := TileRows - 1;
      while y >= 0
        invariant -1 <= y < TileRows
        invariant Shaped(ts)
        invariant y >= 0 ==> colour == Depth(cells[x], y)
        invariant forall x', y' :: 0 <= x' < TiledWidth && 0 <= y' < TileRows ==>
                    PixelAt(ts, x', y') == if x' < x || (x' == x && y' > y) then Painted(cells[x'], y') else Transparent
      {
        if cells[x][y] {
          ts := SetPixel(ts, x, y, EarthColour(colour));
          if colour < 128 {
            colour := colour + 1;
          }
        } else {
          ts := SetPixel(ts, x, y, Transparent);
        }
        if y > 0 {
          var c := cells[x];
          assert c[y - 1 + 1..TileRows] == c[y..TileRows];
          assert c[y..TileRows][1..] == c[y + 1..TileRows];
        }
        y := y - 1;
      }
      x := x + 1;
    }
  }

  /** A sprite mask: a pixel buffer, column-major `pixels[sx][sy]`, whose non-transparent pixels are the silhouette. */
  datatype Sprite = Sprite(width: nat, height: nat, pixels: seq<seq<Colour>>)
  {
    predicate Valid()
    {
      |pixels| == width && forall sx :: 0 <= sx < width ==> |pixels[sx]| == height
    }

    /** No pixel of the mask is part of the silhouette. */
    predicate AllTransparent()
      requires Valid()
    {
      forall sx, sy :: 0 <= sx < width && 0 <= sy < height ==> pixels[sx][sy] == Transparent
    }
  }
}
